=== FILE: README.md ===
# MT5 tick streaming and trading bridge — a Dafny model

This project models the core of a bridge between a MetaTrader 5 terminal and
its clients. Four parts are modelled:

- **The dedicated WebSocket tick server** (`mt5_websocket_server.py`), in
  `tick_server.dfy`. This covers the registry of clients and of per-symbol
  subscriber sets, register/unregister, and subscribe/unsubscribe with their
  replies. It also covers one cycle of the background tick collector with its
  bid/ask change detection, the fan-out broadcast that unregisters clients
  whose connection closed, and the dispatch of one inbound message.
- **The REST server's WebSocket channel** (`api_server.py`), in
  `api_server.dfy`. This covers the list-based `ConnectionManager`, the message
  branch of the `/ws` endpoint, the endpoint's exit path, and one step of a
  per-subscription `send_tick_data` task.
- **The provider wrapper** (`mt5_handler.py`), in `mt5_handler.dfy`. This
  covers the connect/disconnect flag, the not-connected guard of every query
  and trade method, the request dictionaries built by `place_order`,
  `close_position` and `modify_position`, and the order-type name table.
- **The stdio JSON-RPC server** (`mcp_server_standalone.py`), in
  `mcp_server.dfy`. This covers `handle_request` dispatch with the error codes
  of section 5.1 of the JSON-RPC 2.0 specification, the serialised response
  object, the `get_rates` timeframe table with its fallback, and the wrapping
  of `get_tick` and `get_account_info`.

`common.dfy` holds the shared vocabulary: option and result types, the tick
record, the change-detection rule `NeedsBroadcast`, reply messages, decoded
inbound frames, ASCII upper/lower case and integer rendering.

Every call into the MetaTrader5 library is a parameter of the operation that
makes it. Examples are `symbol_info`, `symbol_select`, `symbol_info_tick`,
`order_send`, `positions_get`, `account_info` and `initialize`. A value
parameter stands for one call's answer. A function parameter (`Symbol ->
Option<Tick>`) stands for a call made once per symbol. A socket is an opaque
handle. A send that fails with a closed connection is a set of handles given
to the broadcast.

The MetaTrader5 enumeration values are not in the repository, so the library's
published values are used:

- `TRADE_ACTION_DEAL` = 1 and `TRADE_ACTION_SLTP` = 6;
- `ORDER_TYPE_BUY` … `ORDER_TYPE_SELL_STOP_LIMIT` = 0 … 7;
- `POSITION_TYPE_BUY` = 0;
- `TRADE_RETCODE_DONE` = 10009;
- the `TIMEFRAME_*` codes.

Three behaviours of the code are easy to miss:

- **Subscribe registers before the lookup.** `subscribe_symbol` adds the client
  to the symbol's set before asking the provider about the symbol. An unknown
  or unselectable symbol therefore leaves the registration in place even
  though the reply is an error (`TickServer.SubscribeSymbol`).
- **A failed send unregisters the client everywhere.** It is removed from
  every symbol, not just from the one being broadcast, because the clean-up
  calls `unregister_client` (`TickServer.BroadcastTick`).
- **The REST endpoint's own unsubscribe differs.** It never deletes a key and
  replies only when the pair existed; unknown message types get no reply
  (`ApiServer.EndpointUnsubscribe`, `ApiServer.Receive`).

## Model

| member | source | states |
|---|---|---|
| TickServer.RegisterClient | mt5_websocket_server.py:55-64 | the connection joins the client set, the other clients, the subscriptions and the provider flag are unchanged, and it is greeted with the "Connected to MT5 WebSocket Server" message |
| TickServer.UnregisterClient | mt5_websocket_server.py:66-73 | the client leaves the client set and every subscriber set; a key stays exactly when its set still has another member; every other client's memberships are unchanged |
| TickServer.UnregisterAll | mt5_websocket_server.py:152-153 | unregistering a set of clients: all of them are gone from everywhere, keys survive exactly when someone else is left, and other memberships are untouched |
| TickServer.UnregisterAllStep | mt5_websocket_server.py:152-153 | unregistering one more client after a set equals unregistering the enlarged set at once, so the clean-up loop's order does not matter |
| TickServer.SubscribeSymbol | mt5_websocket_server.py:77-107 | the pair is registered whatever the provider says; success exactly when the symbol exists and is visible or selectable; one reply: subscribed, "Symbol X not found" or "Failed to select symbol X"; other symbols and the client set are untouched |
| TickServer.UnsubscribeSymbol | mt5_websocket_server.py:109-120 | the client is no longer a subscriber of the symbol; the key survives exactly when others remain; other symbols unchanged; the acknowledgement is always sent; an absent pair changes nothing |
| TickServer.UnregisterPreservesValid | mt5_websocket_server.py:66-73 | unregistering keeps "no empty keys" and "every subscriber is a client", and removes the client from everywhere |
| TickServer.SubscribePreservesValid | mt5_websocket_server.py:77-82 | subscribing a registered client keeps the registry invariant |
| TickServer.UnsubscribePreservesValid | mt5_websocket_server.py:109-114 | unsubscribing keeps the registry invariant |
| TickServer.SubscribeIdempotent | mt5_websocket_server.py:79-82 | set semantics: a second subscribe of the same pair leaves the registry as the first left it |
| TickServer.UnsubscribeIdempotent | mt5_websocket_server.py:109-120 | a second unsubscribe of the same pair changes nothing and replies the same |
| TickServer.ResubscribeIsSubscribe | mt5_websocket_server.py:77-120 | unsubscribe followed by subscribe leaves exactly the registry a plain subscribe leaves |
| TickServer.RegisterUnregisterRoundTrip | mt5_websocket_server.py:55-73 | registering a fresh client and unregistering it restores the registry exactly |
| TickServer.BroadcastTick | mt5_websocket_server.py:137-153 | every subscriber whose send succeeds gets the tick, every one whose connection closed is dropped, and the registry afterwards is the original with exactly the dropped clients unregistered; an unknown symbol does nothing |
| TickServer.BroadcastCleanupPreservesValid | mt5_websocket_server.py:145-153 | the clean-up after a broadcast keeps the registry invariant |
| TickServer.Poll | mt5_websocket_server.py:164-180 | over a duplicate-free snapshot of the keys: exactly the symbols with subscribers are fetched, each once; a broadcast is scheduled, at most once per symbol, exactly when the per-symbol rule (first tick, or bid or ask moved) fires; `last_ticks` changes exactly for those symbols |
| TickServer.Decision | mt5_websocket_server.py:165-176 | a symbol yields a broadcast exactly when it has subscribers, a tick is available and the change rule fires; the broadcast carries the fetched tick, whose bid or ask differs from the remembered one |
| Common.NeedsBroadcast | mt5_websocket_server.py:172-175 | the first tick of a symbol is always broadcast, and a tick with the same bid and ask as the remembered one never is |
| TickServer.CollectorCycle | mt5_websocket_server.py:159-182 | a cycle while the provider is disconnected fetches and broadcasts nothing; otherwise it fetches every symbol with subscribers once and broadcasts per the change rule, at most once per symbol |
| TickServer.ConsecutiveCycles | mt5_websocket_server.py:169-176 | after a cycle broadcast tick t for a symbol, the next cycle broadcasts a new tick for it exactly when its bid or ask differs from t, and otherwise keeps t as the last tick |
| TickServer.HandleMessage | mt5_websocket_server.py:184-213 | text the JSON decoder rejects gets "Invalid JSON message"; a binary frame that does not decode and JSON that is not an object raise; ping gets pong; subscribe/unsubscribe with a non-empty symbol act on the registry, without one nothing happens; any other type gets "Unknown message type: T" (None when absent); the client set never changes |
| TickServer.HandleMessagePreservesValid | mt5_websocket_server.py:184-213 | handling any message from a registered client keeps the registry invariant |
| TickServer.ServeMessage | mt5_websocket_server.py:215-225 | the connection stays open unless handling raised; while open, the new state and the replies are exactly those of `handle_message`; once it raised, the client is unregistered from everything and nothing is sent |
| ApiServer.RemoveFirst | api_server.py:39 | `list.remove` on a list without the element leaves it unchanged, otherwise drops its first occurrence and keeps everything before and after it in place; the result is empty exactly when the list was empty or held just that element |
| ApiServer.DropFrom | api_server.py:41-45 | every subscriber list drops the socket; a key is deleted exactly when its list held just that socket |
| ApiServer.Deliver | api_server.py:55-59 | the sends that succeed: each entry not in the closed set is delivered as many times as it occurs, each closed one never |
| ApiServer.RemoveFirstCounts | api_server.py:39 | `list.remove` takes exactly one occurrence away |
| ApiServer.RemoveFirstNoDuplicates | api_server.py:43 | removing from a duplicate-free list leaves the element in it no more |
| ApiServer.Connect | api_server.py:34-36 | the socket is appended to the active list; subscriptions unchanged |
| ApiServer.Disconnect | api_server.py:38-45 | raises when the socket is not active; otherwise one occurrence leaves the active list and every subscriber list, a key is deleted exactly when its list was just that socket, and a duplicate-free manager stays duplicate-free with the socket gone from everywhere |
| ApiServer.Subscribe | api_server.py:47-51 | the subscriber list of the symbol becomes the old one plus the socket, appended only if absent; other symbols and the active list unchanged; no duplicates are introduced |
| ApiServer.BroadcastTick | api_server.py:53-59 | the event reaches exactly the subscribers whose send does not fail, once per list entry; failures are swallowed and the manager is not changed |
| ApiServer.ConnectDisconnectRoundTrip | api_server.py:34-45 | connecting a fresh socket and disconnecting it gives back the original manager |
| ApiServer.ConnectPreservesValid | api_server.py:34-36 | connecting a socket that is not yet active keeps the lists duplicate-free |
| ApiServer.SubscribeIdempotent | api_server.py:50-51 | subscribing twice equals subscribing once |
| ApiServer.EndpointUnsubscribe | api_server.py:251-260 | removes one occurrence and acknowledges exactly when the key and the membership existed; keys are never deleted; otherwise nothing changes |
| ApiServer.UnsubscribeLeavesEmptyList | api_server.py:251-260 | whenever a symbol's only subscriber unsubscribes, the key stays behind with an empty list and the unsubscribe is acknowledged |
| ApiServer.Receive | api_server.py:234-263 | frames that are not JSON, do not decode or are not objects escape the loop; subscribe is exactly the manager's subscribe, acknowledged, with a tick task started for the symbol; unsubscribe is exactly the endpoint's own unsubscribe: keys kept, a reply only for an existing pair; ping gets pong; anything else gets no reply; the active list never changes |
| ApiServer.EndpointExit | api_server.py:265-266 | only a peer disconnect reaches `manager.disconnect`; any other exception leaves the manager untouched |
| ApiServer.ReceiveErrorLeaksConnection | api_server.py:236-266 | after a non-JSON frame the socket remains active and subscribed and its tick task keeps broadcasting |
| ApiServer.EndpointExitFixed | api_server.py:265-266 | with the clean-up on every exit, any exit does what a peer disconnect does as written: one occurrence of the socket leaves the active list and every subscriber list, a key goes exactly when its list was just that socket, and the other sockets and keys are untouched; in a valid manager the socket is gone everywhere |
| ApiServer.EndpointExitFixedStopsTasks | api_server.py:268-285 | once the socket has been cleaned up, its tick task ends at its next step |
| ApiServer.SendTickStep | api_server.py:268-285 | the task ends when its socket is no longer active or fetching raises; it broadcasts to every subscriber of the symbol exactly when a tick arrives and there is no previous tick or the bid or ask moved, and only then updates its last tick |
| ApiServer.ConsecutiveSteps | api_server.py:275-282 | after a step that broadcast tick t, the next step broadcasts a tick exactly when its bid or ask differs from t |
| Mt5Handler.Connect | mt5_handler.py:16-40 | the path overload is used exactly when a non-empty path is given; success exactly when initialisation and the account query succeed; a missing account shuts the terminal down; failure leaves the flag as it was |
| Mt5Handler.Disconnect | mt5_handler.py:42-47 | afterwards the flag is down; shutdown is called exactly when it was up |
| Mt5Handler.DisconnectIdempotent | mt5_handler.py:42-47 | disconnecting twice equals disconnecting once and shuts down at most once |
| Mt5Handler.ConnectThenDisconnect | mt5_handler.py:16-47 | after connect then disconnect the flag is down, and shutdown was called exactly when the flag was up in between |
| Mt5Handler.GetAccountInfo | mt5_handler.py:49-73 | `None` when not connected, the provider's record otherwise |
| Mt5Handler.GetSymbols | mt5_handler.py:75-106 | `[]` when not connected, every listed symbol otherwise |
| Mt5Handler.GetTickData | mt5_handler.py:108-125 | a tick exactly when connected and the provider has one |
| Mt5Handler.GetRates | mt5_handler.py:127-137 | rows exactly when connected and the provider returns a non-empty set of bars |
| Mt5Handler.GetPositions | mt5_handler.py:139-165 | empty when not connected or on `None`; otherwise one entry per position, in order, labelled BUY for a buy position and SELL for any other type, with its ticket, symbol, volume, open price, stop loss and take profit copied |
| Mt5Handler.GetOrders | mt5_handler.py:167-191 | empty when not connected or on `None`; otherwise one entry per order, in order, with its type code named and its ticket, symbol, volume and open price copied |
| Mt5Handler.OrderTypeName | mt5_handler.py:333-345 | a code is named "UNKNOWN" exactly when it is not one of the eight order kinds; among those, the buy-side names are exactly the even codes |
| Mt5Handler.OrderTypeNamesRoundTrip | mt5_handler.py:333-345 | the name table is a bijection between the eight order codes and their names; every other code is "UNKNOWN", which names no code |
| Mt5Handler.ParseSide | mt5_handler.py:219-226 | a side is recognised exactly when the upper-cased text is BUY or SELL, and it is that side |
| Mt5Handler.ParseSideIgnoresCase | mt5_handler.py:219-226 | the side is read case-insensitively; each side's name, in any case, reads back as that side |
| Mt5Handler.WithOptional | mt5_handler.py:228-231 | an optional level adds its key exactly when a value is given and leaves the other keys alone |
| Mt5Handler.OrderRequest | mt5_handler.py:210-231 | the request is a market deal with deviation 10 at the explicit price, else the ask for a buy and the bid for a sell; "sl" and "tp" appear exactly when given |
| Mt5Handler.PlaceOrder | mt5_handler.py:193-249 | the guard, unknown-symbol, selection and invalid-type failures send nothing and carry their messages; a request is sent exactly when all checks pass; success exactly when the retcode is DONE, otherwise "Order failed: …" with the retcode |
| Mt5Handler.ClosePosition | mt5_handler.py:251-293 | not connected, or an unknown ticket, sends nothing; a missing symbol record raises; otherwise the opposite deal for the full volume is sent, selling a buy position at the bid and buying any other at the ask; success exactly on DONE |
| Mt5Handler.CloseIsOppositeMarketOrder | mt5_handler.py:261-276 | closing a position opened on one side sends the market deal a fresh order of the opposite side would send (type, symbol, price, whole volume) |
| Mt5Handler.ModifyPosition | mt5_handler.py:295-331 | not connected or an unknown ticket sends nothing; otherwise an SL/TP request with each level taken from the argument when given and from the position otherwise; success message exactly on DONE |
| Mt5Handler.ModifyKeepsOmittedLevels | mt5_handler.py:306-320 | a modify naming no level re-sends the position's levels; naming one leaves the other as it was |
| Mt5Handler.NotConnectedGuards | mt5_handler.py:51-52 | with the flag down every query returns its empty value and every trade method fails with "Not connected to MT5" without sending, whatever the provider would answer |
| McpServer.HandleRequest | mcp_server_standalone.py:220-252 | a method outside the table answers -32601 "Method not found: m" without invoking anything; a known method is invoked with the params (an empty mapping when absent); its return value becomes the result and its exception text a -32603 error; version "2.0" and the request's id are always echoed |
| McpServer.HandleRequestDependsOnlyOnCall | mcp_server_standalone.py:226-252 | the answer depends only on the invoked method's behaviour for this request's name and params |
| McpServer.ResponseToJson | mcp_server_standalone.py:227-251 | the response object carries "jsonrpc", "id" and exactly one of "result" and "error" |
| McpServer.ResponseJsonRoundTrip | mcp_server_standalone.py:227-251 | reading the serialised response back recovers it |
| McpServer.TimeframeCode | mcp_server_standalone.py:75-87 | a name in the table yields its code, any other name the fallback |
| McpServer.TimeframeName | mcp_server_standalone.py:75-85 | the inverse table returns a name only if the table maps that name to the code |
| McpServer.TimeframeTableInjective | mcp_server_standalone.py:75-85 | every name in the table is recovered from its code, so no two names share a timeframe |
| McpServer.TimeframeFallbacksDiffer | api_server.py:136-148 | the REST server's table agrees with the standalone server's on every listed name; an unlisted name falls back to one hour there and to one minute here |
| McpServer.GetRates | mcp_server_standalone.py:73-98 | the provider is asked for the resolved code; any rows give success with the requested name echoed and the row count, no rows give "No data available" |
| McpServer.UnknownTimeframeIsOneMinute | mcp_server_standalone.py:87 | an unlisted timeframe name gives the same answer as "M1" |
| McpServer.GetTick | mcp_server_standalone.py:66-71 | success with the tick exactly when connected and a tick exists, otherwise "Failed to get tick for S" |
| McpServer.GetAccountInfo | mcp_server_standalone.py:54-59 | success with the record exactly when connected and the account query answers, otherwise "Not connected to MT5" |
| McpServer.WrappersFollowConnection | mcp_server_standalone.py:42-71 | after disconnecting both wrappers fail whatever the provider says; after a successful connect they pass the provider's answer through |

## Left out

- Sockets, the asyncio event loop, the collector thread and the hand-off between them. Each collector cycle, broadcast and inbound message is one atomic step, so interleavings are not modelled.
- Failures of the reply sends inside `register_client`, `subscribe_symbol`, `unsubscribe_symbol` and `handle_message`. Send exceptions other than a closed connection in `broadcast_tick` are also left out.
- Floating-point arithmetic: the spread `round((ask - bid) * 10000, 2)`, the rounding and clamping of the position size, and the market analysis (`analyze_market`, `_calculate_trend`, the pandas statistics). Prices are `real` and only copied and compared.
- `calculate_position_size`, in all three servers, because it is float arithmetic.
- The ISO-8601 rendering of timestamps and the pandas frame conversion in `get_rates`.
- The dedicated server's `initialize_mt5`, `start_server` and `stop`, and the collector's sleeps.
- The REST routes other than `/ws`, `keep_alive`, startup and shutdown.
- `mcp_server.py`: it registers the same methods through the external `mcp` library.
- The stdio read loop of `run_stdio`, the capabilities line, `main.py`, `config.py` and `test_client.py`.
- ApiServer.Receive: `receive_json` reads only the text of a frame, so on the REST endpoint any binary frame raises. The model reads a binary frame by its decoded content and escapes only for `Undecodable` frames.
- JSON numbers that are not integers. A "type" or "symbol" member that is not a string, which for an unhashable symbol raises inside subscribe, is also left out.
- Mt5Handler.ParseSide: only ASCII letters are upper-cased, so a side spelled with a non-ASCII letter that `str.upper()` maps to B, U, S, E or L (such as "ſell") is rejected, where the code accepts it.
- Mt5Handler.Connect: an exception raised by the library inside `connect` is not modelled. The code turns it into a `False` return.
- Mt5Handler.GetSymbols: the `group` filter is part of the provider's answer. A `None` answer from `symbols_get`, on which the loop raises, is not modelled.
- Mt5Handler.PlaceOrder: an `order_send` answer of `None`, on which reading the retcode raises, is not modelled. The same holds for `ClosePosition`.
- Mt5Handler.ModifyPosition: an `order_send` answer of `None`, on which reading the retcode raises, is not modelled.
- Mt5Handler.ClosePosition: the raised exception's exact text is a stand-in for Python's attribute error message. The fill reply carries the whole trade result, although the code omits its comment here.
- McpServer.HandleRequest: the text of the exception a list- or object-valued "method" raises is not modelled, only that no answer is produced. A `params` value that is not a mapping counts as the invocation raising.
- McpServer.GetRates: the row count is the handler's row count; the rows' pandas rendering is not modelled. The `count` argument, the number of bars asked for, is not a parameter: it is folded into the `rates` oracle, which stands for the provider's answer to that request.

## Findings

| source | as written | input that shows it | evidently intended | confidence | as-written member | corrected member |
|---|---|---|---|---|---|---|
| api_server.py:265-266 | the endpoint calls `manager.disconnect` only on `WebSocketDisconnect`; a frame that is not JSON, or is JSON but not an object, raises something else and leaves the loop without clean-up | a subscribed client sends the text frame `hello`; its socket stays in `active_connections` and in the subscription list, and its `send_tick_data` task keeps broadcasting | disconnect the socket however the loop ends, as the dedicated server's `finally` does | medium, not executed | ApiServer.EndpointExit, ApiServer.ReceiveErrorLeaksConnection | ApiServer.EndpointExitFixed, ApiServer.EndpointExitFixedStopsTasks |

=== FILE: api_server.dfy ===
/** The HTTP-upgraded streaming channel of api_server.py: the
    `ConnectionManager` (lists of connections instead of sets), the message
    branch of the `/ws` endpoint, one step of a per-subscription
    `send_tick_data` task and the endpoint's exit path. Its observable
    behaviour differs from the dedicated server: an unsubscribe never deletes
    a key and is acknowledged only when the pair existed, unknown message
    types get no reply, and a failed send is swallowed without removing the
    connection. */
module ApiServer {
  import opened Common

  /** An opaque handle for one accepted WebSocket. */
  type Conn = nat

  /** `active_connections` and `subscriptions` of the `ConnectionManager`. */
  datatype Manager = Manager(active: seq<Conn>, subscriptions: map<Symbol, seq<Conn>>)

  /** No list of the manager holds a connection twice. */
  ghost predicate Valid(m: Manager) {
    Distinct(m.active)
    && forall k :: k in m.subscriptions ==> Distinct(m.subscriptions[k])
  }

  /** The subscriber list of `sym`, empty when the symbol is not a key. */
  function Subscribers(m: Manager, sym: Symbol): seq<Conn> {
    if sym in m.subscriptions then m.subscriptions[sym] else []
  }

  /** `list.remove(x)` on a list that may or may not hold `x`: the first
      occurrence is dropped, nothing else moves. */
  function RemoveFirst(xs: seq<Conn>, x: Conn): (r: seq<Conn>)
    ensures x !in xs ==> r == xs
    ensures |r| == if x in xs then |xs| - 1 else |xs|
    ensures r == [] <==> xs == [] || xs == [x]
    ensures x in xs ==> exists i :: 0 <= i < |xs| && xs[i] == x && x !in xs[..i] && r == xs[..i] + xs[i + 1..]
  {
    if xs == [] then []
    else if xs[0] == x then
      assert xs[..0] == [] && xs[0 + 1..] == xs[1..];
      xs[1..]
    else
      assert x in xs <==> x in xs[1..];
      var rest := RemoveFirst(xs[1..], x);
      if x in xs[1..] then
        var j :| 0 <= j < |xs[1..]| && xs[1..][j] == x && x !in xs[1..][..j] && rest == xs[1..][..j] + xs[1..][j + 1..];
        RemoveFirstShift(xs, x, j, rest);
        [xs[0]] + rest
      else [xs[0]] + rest
  }

  /** A split of the tail of `xs` around its first `x` is a split of `xs`
      one position further on. */
  lemma RemoveFirstShift(xs: seq<Conn>, x: Conn, j: int, rest: seq<Conn>)
    requires xs != [] && xs[0] != x && 0 <= j < |xs| - 1
    requires xs[1..][j] == x && x !in xs[1..][..j] && rest == xs[1..][..j] + xs[1..][j + 1..]
    ensures xs[j + 1] == x && x !in xs[..j + 1] && [xs[0]] + rest == xs[..j + 1] + xs[j + 1 + 1..]
  {
    assert xs[..j + 1] == [xs[0]] + xs[1..][..j];
    assert xs[j + 1 + 1..] == xs[1..][j + 1..];
  }

  /** `list.remove(x)` takes exactly one occurrence of `x` away, if any. */
  lemma {:induction false} RemoveFirstCounts(xs: seq<Conn>, x: Conn)
    ensures multiset(RemoveFirst(xs, x)) == multiset(xs) - multiset{x}
    decreases |xs|
  {
    if xs != [] {
      assert xs == [xs[0]] + xs[1..];
      if xs[0] != x {
        RemoveFirstCounts(xs[1..], x);
      }
    }
  }

  /** Removing from a duplicate-free list removes the element entirely. */
  lemma RemoveFirstNoDuplicates(xs: seq<Conn>, x: Conn)
    ensures Distinct(xs) ==> Distinct(RemoveFirst(xs, x)) && x !in RemoveFirst(xs, x)
  {
    RemoveFirstCounts(xs, x);
    if Distinct(xs) {
      var counts: multiset<Conn> := multiset(RemoveFirst(xs, x));
      assert counts[x] == 0;
    }
  }

  /** The elements of `xs` not in `closed`, in their order. */
  function Deliver(xs: seq<Conn>, closed: set<Conn>): (r: seq<Conn>)
    ensures forall c :: c in r <==> c in xs && c !in closed
    ensures forall c :: multiset(r)[c] == if c in closed then 0 else multiset(xs)[c]
    ensures |r| <= |xs|
    ensures closed !! (set c | c in xs) ==> r == xs
  {
    if xs == [] then []
    else
      assert xs == [xs[0]] + xs[1..];
      if xs[0] in closed then Deliver(xs[1..], closed)
      else [xs[0]] + Deliver(xs[1..], closed)
  }

  // ---------------------------------------------------------------------
  // ConnectionManager
  // ---------------------------------------------------------------------

  /** `ConnectionManager.connect`: the accepted socket is appended. */
  function Connect(m: Manager, ws: Conn): (r: Manager)
    ensures multiset(r.active) == multiset(m.active) + multiset{ws}
    ensures |r.active| == |m.active| + 1 && r.active[..|m.active|] == m.active
    ensures r.subscriptions == m.subscriptions
  {
    m.(active := m.active + [ws])
  }

  /** Every subscription list drops one occurrence of `ws`; a key whose list
      `ws` emptied is deleted, any other key stays. */
  function DropFrom(subs: map<Symbol, seq<Conn>>, ws: Conn): (r: map<Symbol, seq<Conn>>)
    ensures forall k :: k in r <==> k in subs && subs[k] != [ws]
    ensures forall k :: k in r ==> r[k] == RemoveFirst(subs[k], ws)
  {
    map k | k in subs && !(ws in subs[k] && RemoveFirst(subs[k], ws) == []) ::
      if ws in subs[k] then RemoveFirst(subs[k], ws) else subs[k]
  }

  /** Every list of `DropFrom` lost exactly one occurrence of `ws`, if any. */
  lemma DropFromCounts(subs: map<Symbol, seq<Conn>>, ws: Conn)
    ensures forall k :: k in DropFrom(subs, ws) ==>
              multiset(DropFrom(subs, ws)[k]) == multiset(subs[k]) - multiset{ws}
  {
    forall k | k in DropFrom(subs, ws)
      ensures multiset(DropFrom(subs, ws)[k]) == multiset(subs[k]) - multiset{ws}
    {
      RemoveFirstCounts(subs[k], ws);
    }
  }

  /** Dropping `ws` from duplicate-free lists leaves it in none of them. */
  lemma DropFromNoDuplicates(subs: map<Symbol, seq<Conn>>, ws: Conn)
    ensures (forall k :: k in subs ==> Distinct(subs[k])) ==>
              forall k :: k in DropFrom(subs, ws) ==>
                Distinct(DropFrom(subs, ws)[k]) && ws !in DropFrom(subs, ws)[k]
  {
    if forall k :: k in subs ==> Distinct(subs[k]) {
      forall k | k in DropFrom(subs, ws)
        ensures Distinct(DropFrom(subs, ws)[k]) && ws !in DropFrom(subs, ws)[k]
      {
        RemoveFirstNoDuplicates(subs[k], ws);
      }
    }
  }

  /** `ConnectionManager.disconnect`. `list.remove` raises when the socket is
      not an active connection; otherwise its first occurrence leaves
      `active_connections`, it leaves every subscription list that holds it,
      and a key whose list it emptied is deleted. A list that was already
      empty (an endpoint unsubscribe can leave one) keeps its key. */
  function Disconnect(m: Manager, ws: Conn): (r: Result<Manager>)
    ensures r.Ok? <==> ws in m.active
    ensures r.Err? ==> r.error == "list.remove(x): x not in list"
    ensures r.Ok? ==> multiset(r.value.active) == multiset(m.active) - multiset{ws}
    ensures r.Ok? ==> forall k :: k in r.value.subscriptions <==> k in m.subscriptions && m.subscriptions[k] != [ws]
    ensures r.Ok? ==> forall k :: k in r.value.subscriptions ==>
              multiset(r.value.subscriptions[k]) == multiset(m.subscriptions[k]) - multiset{ws}
    ensures r.Ok? && Valid(m) ==> Valid(r.value) && ws !in r.value.active
    ensures r.Ok? && Valid(m) ==> forall k :: k in r.value.subscriptions ==> ws !in r.value.subscriptions[k]
  {
    if ws !in m.active then Err("list.remove(x): x not in list")
    else
      DropFromNoDuplicates(m.subscriptions, ws);
      DropFromCounts(m.subscriptions, ws);
      RemoveFirstCounts(m.active, ws);
      RemoveFirstNoDuplicates(m.active, ws);
      Ok(Manager(RemoveFirst(m.active, ws), DropFrom(m.subscriptions, ws)))
  }

  /** `ConnectionManager.subscribe`: create the list if absent, append the
      socket only if it is not already there. */
  function Subscribe(m: Manager, ws: Conn, sym: Symbol): (r: Manager)
    ensures sym in r.subscriptions
    ensures forall c :: c in r.subscriptions[sym] <==> c in Subscribers(m, sym) || c == ws
    ensures ws in Subscribers(m, sym) ==> r.subscriptions[sym] == Subscribers(m, sym)
    ensures ws !in Subscribers(m, sym) ==> r.subscriptions[sym] == Subscribers(m, sym) + [ws]
    ensures forall k :: k != sym ==> Get(r.subscriptions, k) == Get(m.subscriptions, k)
    ensures r.active == m.active
    ensures Valid(m) ==> Valid(r)
  {
    var list := Subscribers(m, sym);
    var list' := if ws in list then list else list + [ws];
    assert ws !in list ==> multiset(list') == multiset(list) + multiset{ws};
    m.(subscriptions := m.subscriptions[sym := list'])
  }

  /** `ConnectionManager.broadcast_tick`: every subscriber of `sym` gets a
      send attempt; a send to a socket in `closed` raises and the exception
      is swallowed. The manager is not changed: a dead socket stays
      subscribed. The result lists the sockets that received the event. */
  function BroadcastTick(m: Manager, sym: Symbol, closed: set<Conn>): (delivered: seq<Conn>)
    ensures forall c :: c in delivered <==> sym in m.subscriptions && c in m.subscriptions[sym] && c !in closed
    ensures |delivered| <= |Subscribers(m, sym)|
    ensures forall c :: multiset(delivered)[c] == if c in closed then 0 else multiset(Subscribers(m, sym))[c]
  {
    Deliver(Subscribers(m, sym), closed)
  }

  // ---------------------------------------------------------------------
  // ConnectionManager properties
  // ---------------------------------------------------------------------

  /** `list.remove` of an element appended to a list that does not hold it
      gives the list back. */
  lemma {:induction false} RemoveFirstAppended(xs: seq<Conn>, x: Conn)
    requires x !in xs
    ensures RemoveFirst(xs + [x], x) == xs
    decreases |xs|
  {
    if xs != [] {
      assert (xs + [x])[1..] == xs[1..] + [x];
      RemoveFirstAppended(xs[1..], x);
      assert xs == [xs[0]] + xs[1..];
    }
  }

  /** Dropping a socket that no list holds changes nothing. */
  lemma DropFromUntouched(subs: map<Symbol, seq<Conn>>, ws: Conn)
    requires forall k :: k in subs ==> ws !in subs[k]
    ensures DropFrom(subs, ws) == subs
  {
    var r := DropFrom(subs, ws);
    forall k | k in subs ensures k in r && r[k] == subs[k] {
      var list := subs[k];
      assert list != [ws];
    }
    assert r.Keys == subs.Keys;
  }

  /** Connecting a socket that is neither active nor subscribed and
      disconnecting it again gives back the original manager. */
  lemma ConnectDisconnectRoundTrip(m: Manager, ws: Conn)
    requires ws !in m.active
    requires forall k :: k in m.subscriptions ==> ws !in m.subscriptions[k]
    ensures Disconnect(Connect(m, ws), ws) == Ok(m)
  {
    RemoveFirstAppended(m.active, ws);
    DropFromUntouched(m.subscriptions, ws);
    var c := Connect(m, ws);
    assert c.active == m.active + [ws];
  }

  /** Connecting a fresh socket keeps the manager free of duplicates. */
  lemma ConnectPreservesValid(m: Manager, ws: Conn)
    requires Valid(m) && ws !in m.active
    ensures Valid(Connect(m, ws))
  {
    assert multiset(Connect(m, ws).active) == multiset(m.active) + multiset{ws};
  }

  /** Subscribing twice is the same as subscribing once. */
  lemma SubscribeIdempotent(m: Manager, ws: Conn, sym: Symbol)
    ensures Subscribe(Subscribe(m, ws, sym), ws, sym) == Subscribe(m, ws, sym)
  {
  }

  // ---------------------------------------------------------------------
  // The /ws endpoint
  // ---------------------------------------------------------------------

  /** The endpoint's own unsubscribe: remove the socket and acknowledge only
      when both the key and the membership exist. The key is never deleted,
      so an emptied list stays behind. */
  function EndpointUnsubscribe(m: Manager, ws: Conn, sym: Symbol): (r: (Manager, seq<Reply>))
    ensures r.0.subscriptions.Keys == m.subscriptions.Keys && r.0.active == m.active
    ensures r.1 == (if sym in m.subscriptions && ws in m.subscriptions[sym]
                    then [Subscription(sym, "unsubscribed")] else [])
    ensures r.1 == [] ==> r.0 == m
    ensures sym in r.0.subscriptions ==>
              multiset(r.0.subscriptions[sym]) == multiset(m.subscriptions[sym]) - multiset{ws}
    ensures forall k :: k != sym ==> Get(r.0.subscriptions, k) == Get(m.subscriptions, k)
    ensures Valid(m) ==> Valid(r.0) && ws !in Subscribers(r.0, sym)
  {
    if sym in m.subscriptions && ws in m.subscriptions[sym] then
      RemoveFirstCounts(m.subscriptions[sym], ws);
      RemoveFirstNoDuplicates(m.subscriptions[sym], ws);
      (m.(subscriptions := m.subscriptions[sym := RemoveFirst(m.subscriptions[sym], ws)]),
       [Subscription(sym, "unsubscribed")])
    else (m, [])
  }

  /** Unlike the dedicated server, the endpoint leaves an empty list behind
      when the last subscriber of a symbol unsubscribes. */
  lemma UnsubscribeLeavesEmptyList(m: Manager, ws: Conn, sym: Symbol)
    requires Subscribers(m, sym) == [ws]
    ensures var r := EndpointUnsubscribe(m, ws, sym);
            sym in r.0.subscriptions && r.0.subscriptions[sym] == []
            && r.1 == [Subscription(sym, "unsubscribed")]
  {
  }

  /** Result of one received frame: the new manager, the replies to the
      sender and the symbol whose `send_tick_data` task was started, or
      `Escaped` when an exception other than a disconnect leaves the loop
      (`receive_json` on a frame that is not JSON or does not decode, `.get`
      on a non-object). */
  datatype Received = Served(manager: Manager, replies: seq<Reply>, spawned: Option<Symbol>) | Escaped

  /** The message branch of `websocket_endpoint`. */
  function Receive(m: Manager, ws: Conn, msg: Inbound): (r: Received)
    ensures r.Escaped? <==> !msg.Object?
    ensures r.Served? ==> r.manager.active == m.active
    ensures r.Served? && Valid(m) ==> Valid(r.manager)
    ensures msg.Object? && msg.msgType == Some("subscribe") && Truthy(msg.symbol) ==>
              r == Served(Subscribe(m, ws, msg.symbol.value), [Subscription(msg.symbol.value, "subscribed")], msg.symbol)
              && ws in Subscribers(r.manager, msg.symbol.value)
    ensures msg.Object? && msg.msgType == Some("ping") ==> r == Served(m, [Pong], None)
    ensures msg.Object? && msg.msgType !in {Some("subscribe"), Some("unsubscribe"), Some("ping")} ==>
              r == Served(m, [], None)
    ensures msg.Object? && msg.msgType in {Some("subscribe"), Some("unsubscribe")} && !Truthy(msg.symbol) ==>
              r == Served(m, [], None)
    ensures msg.Object? && msg.msgType == Some("unsubscribe") && Truthy(msg.symbol) ==>
              var (m', replies) := EndpointUnsubscribe(m, ws, msg.symbol.value);
              r == Served(m', replies, None)
              && r.manager.subscriptions.Keys == m.subscriptions.Keys
              && (r.replies != [] <==> msg.symbol.value in m.subscriptions && ws in m.subscriptions[msg.symbol.value])
  {
    match msg
    case NotJson => Escaped
    case NotObject => Escaped
    case Undecodable => Escaped
    case Object(msgType, symbol) =>
      if msgType == Some("subscribe") then
        if Truthy(symbol) then
          Served(Subscribe(m, ws, symbol.value), [Subscription(symbol.value, "subscribed")], symbol)
        else Served(m, [], None)
      else if msgType == Some("unsubscribe") then
        if Truthy(symbol) then
          var (m', replies) := EndpointUnsubscribe(m, ws, symbol.value);
          Served(m', replies, None)
        else Served(m, [], None)
      else if msgType == Some("ping") then Served(m, [Pong], None)
      else Served(m, [], None)
  }

  /** How the endpoint's receive loop ended: the peer disconnected
      (`WebSocketDisconnect`), or receiving raised something else. */
  datatype Exit = PeerDisconnected | ReceiveRaised

  /** The endpoint's exit path as written: only `WebSocketDisconnect` reaches
      `manager.disconnect`; any other exception leaves the manager as it
      was. */
  function EndpointExit(m: Manager, ws: Conn, e: Exit): (r: Result<Manager>)
    ensures e == PeerDisconnected ==> r == Disconnect(m, ws)
    ensures e == ReceiveRaised ==> r == Ok(m)
  {
    match e
    case PeerDisconnected => Disconnect(m, ws)
    case ReceiveRaised => Ok(m)
  }

  /** The exit path with the clean-up in a `finally`, as the dedicated server
      does it: however the loop ends, the socket is disconnected. */
  function EndpointExitFixed(m: Manager, ws: Conn, e: Exit): (r: Result<Manager>)
    ensures r == EndpointExit(m, ws, PeerDisconnected)
    ensures ws in m.active <==> r.Ok?
    ensures r.Ok? ==> multiset(r.value.active) == multiset(m.active) - multiset{ws}
    ensures r.Ok? ==> forall k :: k in r.value.subscriptions <==> k in m.subscriptions && m.subscriptions[k] != [ws]
    ensures r.Ok? ==> forall k :: k in r.value.subscriptions ==>
              multiset(r.value.subscriptions[k]) == multiset(m.subscriptions[k]) - multiset{ws}
    ensures r.Ok? && Valid(m) ==> Valid(r.value) && ws !in r.value.active
    ensures r.Ok? && Valid(m) ==> forall k :: k in r.value.subscriptions ==> ws !in r.value.subscriptions[k]
  {
    Disconnect(m, ws)
  }

  // ---------------------------------------------------------------------
  // One step of send_tick_data
  // ---------------------------------------------------------------------

  /** What `get_tick_data` does in one step: returns a tick, returns
      nothing, or raises. */
  datatype Fetch = Fetched(tick: Tick) | NoTick | FetchRaised

  /** `Exited` when the task's loop ends; otherwise the task's new
      `last_tick`, whether it broadcast, and who received the broadcast. */
  datatype TaskStep = Exited | Continued(lastTick: Option<Tick>, broadcast: bool, delivered: seq<Conn>)

  /** One iteration of the `send_tick_data(ws, sym)` task. The loop runs only
      while `ws` is an active connection and ends on any exception. It
      broadcasts to every subscriber of `sym` (not just `ws`) when there is
      no previous tick or the bid or ask moved, and only then updates its
      `last_tick`. */
  function SendTickStep(m: Manager, ws: Conn, sym: Symbol, handlerConnected: bool,
                        fetch: Fetch, lastTick: Option<Tick>, closed: set<Conn>): (r: TaskStep)
    ensures r.Exited? <==> ws !in m.active || (handlerConnected && fetch.FetchRaised?)
    ensures r.Continued? && r.broadcast <==>
              ws in m.active && handlerConnected && fetch.Fetched? && NeedsBroadcast(lastTick, fetch.tick)
    ensures r.Continued? && r.broadcast ==>
              r.lastTick == Some(fetch.tick) && r.delivered == BroadcastTick(m, sym, closed)
    ensures r.Continued? && !r.broadcast ==> r.lastTick == lastTick && r.delivered == []
  {
    if ws !in m.active then Exited
    else if !handlerConnected then Continued(lastTick, false, [])
    else match fetch
      case FetchRaised => Exited
      case NoTick => Continued(lastTick, false, [])
      case Fetched(t) =>
        if NeedsBroadcast(lastTick, t) then Continued(Some(t), true, BroadcastTick(m, sym, closed))
        else Continued(lastTick, false, [])
  }

  /** Change detection across two consecutive steps of one task: after a
      step that broadcast `t`, the next step broadcasts a fetched `t2`
      exactly when its bid or ask differs from `t`. */
  lemma ConsecutiveSteps(m1: Manager, m2: Manager, ws: Conn, sym: Symbol, lastTick: Option<Tick>,
                         t: Tick, t2: Tick, closed1: set<Conn>, closed2: set<Conn>)
    requires SendTickStep(m1, ws, sym, true, Fetched(t), lastTick, closed1).Continued?
    requires SendTickStep(m1, ws, sym, true, Fetched(t), lastTick, closed1).broadcast
    requires ws in m2.active
    ensures var first := SendTickStep(m1, ws, sym, true, Fetched(t), lastTick, closed1);
            var second := SendTickStep(m2, ws, sym, true, Fetched(t2), first.lastTick, closed2);
            second.Continued? && (second.broadcast <==> t2.bid != t.bid || t2.ask != t.ask)
  {
  }

  /** The exit path as written leaks: after a frame that is not JSON the
      socket is still active and still subscribed, so its `send_tick_data`
      task keeps polling and broadcasting. */
  lemma ReceiveErrorLeaksConnection(t: Tick)
    ensures var m := Manager([7], map["EURUSD" := [7]]);
            && Receive(m, 7, NotJson) == Escaped
            && EndpointExit(m, 7, ReceiveRaised) == Ok(m)
            && 7 in EndpointExit(m, 7, ReceiveRaised).value.active
            && SendTickStep(EndpointExit(m, 7, ReceiveRaised).value, 7, "EURUSD", true, Fetched(t), None, {7})
               == Continued(Some(t), true, [])
  {
    var m := Manager([7], map["EURUSD" := [7]]);
    assert Deliver([7], {7}) == [];
  }

  /** With the clean-up in place the socket is gone from the manager however
      the loop ends, and its tick task stops at its next step. */
  lemma EndpointExitFixedStopsTasks(m: Manager, ws: Conn, e: Exit, sym: Symbol, handlerConnected: bool,
                                    fetch: Fetch, lastTick: Option<Tick>, closed: set<Conn>)
    requires Valid(m) && ws in m.active
    ensures EndpointExitFixed(m, ws, e).Ok?
    ensures SendTickStep(EndpointExitFixed(m, ws, e).value, ws, sym, handlerConnected, fetch, lastTick, closed) == Exited
  {
  }
}

=== FILE: common.dfy ===
/** Vocabulary shared by both tick servers, the MetaTrader 5 handler and the
    JSON-RPC server: optional values, ticks, the change-detection rule, the
    protocol's reply messages and a few string helpers. */
module Common {

  datatype Option<+T> = None | Some(value: T) {
    function GetOr(default: T): T {
      match this
      case Some(v) => v
      case None => default
    }
  }

  /** Outcome of an operation that may raise: `Err` carries the exception text. */
  datatype Result<+T> = Ok(value: T) | Err(error: string)

  /** No element occurs twice: a list that behaves like a set. */
  ghost predicate Distinct<T(!new)>(xs: seq<T>) {
    forall x :: multiset(xs)[x] <= 1
  }

  /** The tail of a duplicate-free sequence is duplicate-free and does not
      hold the head. */
  lemma DistinctTail<T(!new)>(xs: seq<T>)
    requires Distinct(xs) && xs != []
    ensures Distinct(xs[1..]) && xs[0] !in xs[1..]
  {
    assert xs == [xs[0]] + xs[1..];
    var tail := xs[1..];
    assert multiset(xs) == multiset{xs[0]} + multiset(tail);
    assert multiset(xs)[xs[0]] <= 1;
    forall x ensures multiset(tail)[x] <= 1 {
      assert multiset(xs)[x] <= 1;
    }
  }

  /** Putting a new element in front of a duplicate-free sequence that does
      not hold it keeps it duplicate-free. */
  lemma DistinctCons<T(!new)>(x: T, xs: seq<T>)
    requires Distinct(xs) && x !in xs
    ensures Distinct([x] + xs)
  {
  }

  /** An instrument identifier, case-significant, as the provider names it. */
  type Symbol = string

  /** A decimal quantity (price, volume, spread). The model never does
      arithmetic on it; prices are only copied and compared for equality. */
  type Price = real

  /** One quote as the provider adapter hands it over. `time` is the
      provider's epoch timestamp (its ISO-8601 rendering is not modelled) and
      `spread` is whatever the adapter computed. */
  datatype Tick = Tick(symbol: Symbol, bid: Price, ask: Price, last: Price,
                       volume: Price, time: int, spread: Price)

  /** The change-detection rule both pollers use: broadcast when there is no
      previous tick, or when the bid or the ask differs from it. */
  predicate NeedsBroadcast(previous: Option<Tick>, current: Tick)
    ensures previous.None? ==> NeedsBroadcast(previous, current)
    ensures previous.Some? && previous.value.bid == current.bid && previous.value.ask == current.ask
            ==> !NeedsBroadcast(previous, current)
  {
    previous.None? || previous.value.bid != current.bid || previous.value.ask != current.ask
  }

  /** Dictionary lookup `d.get(k)`. */
  function Get<K, V>(m: map<K, V>, k: K): (r: Option<V>)
    ensures r.Some? <==> k in m
    ensures r.Some? ==> r.value == m[k]
  {
    if k in m then Some(m[k]) else None
  }

  /** Messages the servers send to a client. */
  datatype Reply =
    | Connected(message: string)
    | Subscription(symbol: Symbol, status: string)
    | Error(message: string)
    | Pong
    | TickEvent(tick: Tick)

  /** An inbound frame after JSON decoding. `Undecodable` is a binary frame
      whose bytes are not text in any of the encodings `json.loads` detects,
      on which it raises a `UnicodeDecodeError`; any other frame is read as
      its text. `NotJson` is text the decoder rejects; `NotObject` is valid
      JSON that is not an object (a list, a number, ...), on which `.get`
      raises. For an object, `msgType` is the text of its "type" member and
      `symbol` the text of its "symbol" member, `None` when the member is
      absent or null. */
  datatype Inbound =
    | Undecodable
    | NotJson
    | NotObject
    | Object(msgType: Option<string>, symbol: Option<string>)

  /** Python truthiness of the "symbol" member: present, non-null, non-empty. */
  predicate Truthy(symbol: Option<string>) {
    symbol.Some? && symbol.value != ""
  }

  /** `str()` of an optional value, as an f-string renders it. */
  function ShowOption(v: Option<string>): string {
    match v
    case Some(s) => s
    case None => "None"
  }

  function UpperChar(c: char): char {
    if 'a' <= c <= 'z' then (c as int - 'a' as int + 'A' as int) as char else c
  }

  function LowerChar(c: char): char {
    if 'A' <= c <= 'Z' then (c as int - 'A' as int + 'a' as int) as char else c
  }

  /** `str.upper()` on the ASCII letters. */
  function Upper(s: string): (r: string)
    ensures |r| == |s|
    ensures forall i :: 0 <= i < |s| ==> r[i] == UpperChar(s[i])
  {
    seq(|s|, i requires 0 <= i < |s| => UpperChar(s[i]))
  }

  /** `str.lower()` on the ASCII letters. */
  function Lower(s: string): (r: string)
    ensures |r| == |s|
    ensures forall i :: 0 <= i < |s| ==> r[i] == LowerChar(s[i])
  {
    seq(|s|, i requires 0 <= i < |s| => LowerChar(s[i]))
  }

  function DigitChar(d: nat): char
    requires d < 10
  {
    ('0' as int + d) as char
  }

  /** Decimal rendering of a natural number, without leading zeros. */
  function NatToString(n: nat): (r: string)
    ensures |r| >= 1
    ensures forall i :: 0 <= i < |r| ==> '0' <= r[i] <= '9'
    decreases n
  {
    if n < 10 then [DigitChar(n)] else NatToString(n / 10) + [DigitChar(n % 10)]
  }

  /** `str()` of an int. */
  function IntToString(i: int): string {
    if i < 0 then "-" + NatToString(-i) else NatToString(i)
  }
}

=== FILE: mcp_server.dfy ===
/** The JSON-RPC front end of mcp_server_standalone.py: a fixed method table,
    one request in and one response out, with the error codes of section 5.1
    of the JSON-RPC 2.0 specification (-32601 "Method not found", -32603
    "Internal error"). The methods themselves are an oracle; the model
    covers the wrappers whose logic is the server's own: the timeframe
    lookup of `get_rates` and the success/error wrapping of `get_tick` and
    `get_account_info`. */
module McpServer {
  import opened Common
  import Mt5Handler

  /** A decoded JSON value (numbers other than integers are not modelled). */
  datatype Value =
    | VNull
    | VBool(b: bool)
    | VInt(i: int)
    | VStr(s: string)
    | VList(items: seq<Value>)
    | VObj(fields: map<string, Value>)

  /** The members of a request object the dispatcher reads; `None` when the
      member is absent. */
  datatype Request = Request(methodName: Option<Value>, params: Option<Value>, id: Option<Value>)

  /** What calling a method with its keyword arguments does: it returns a
      value, or it raises with some text (this includes a `params` value that
      is not a mapping and so cannot be unpacked). */
  datatype Invocation = Returned(value: Value) | Threw(message: string)

  datatype Body = RpcResult(result: Value) | RpcError(code: int, message: string)

  datatype Response = Response(jsonrpc: string, body: Body, id: Value)

  /** `handle_request` either answers, recording the method it invoked, or
      raises before answering (a method member that is a list or an object
      cannot be looked up in the table). */
  datatype Handled = Answered(response: Response, invoked: Option<string>) | Escaped(error: string)

  const METHOD_NOT_FOUND: int := -32601
  const INTERNAL_ERROR: int := -32603
  const JSONRPC_VERSION := "2.0"

  /** The method table. */
  const METHODS: set<string> := {
    "connect_mt5", "disconnect_mt5", "get_account_info", "get_symbols", "get_tick",
    "get_rates", "get_positions", "get_orders", "place_order", "close_position",
    "modify_position", "analyze_market", "calculate_position_size"
  }

  /** `str()` of a hashable JSON scalar, as an f-string renders it. */
  function Show(v: Value): string
    requires !v.VList? && !v.VObj?
  {
    match v
    case VNull => "None"
    case VBool(b) => if b then "True" else "False"
    case VInt(i) => IntToString(i)
    case VStr(s) => s
  }

  /** `request.get(...)` where an explicit JSON null reads as `None` too. */
  function Member(m: Option<Value>): Value {
    m.GetOr(VNull)
  }

  /** `handle_request`. A method outside the table answers -32601 without
      invoking anything; a method in the table is invoked with the params
      (an empty mapping when absent), its return value becomes the result
      and its exception text a -32603 error. Every answer carries version
      "2.0" and echoes the request's id (null when absent). */
  function HandleRequest(req: Request, invoke: (string, Value) -> Invocation): (r: Handled)
    ensures r.Escaped? <==> Member(req.methodName).VList? || Member(req.methodName).VObj?
    ensures r.Answered? ==> r.response.jsonrpc == JSONRPC_VERSION && r.response.id == Member(req.id)
    ensures r.Answered? ==>
              (r.invoked.Some? <==> Member(req.methodName).VStr? && Member(req.methodName).s in METHODS)
    ensures r.Answered? && r.invoked.None? ==>
              r.response.body == RpcError(METHOD_NOT_FOUND, "Method not found: " + Show(Member(req.methodName)))
    ensures r.Answered? && r.invoked.Some? ==>
              var name := r.invoked.value;
              var params := req.params.GetOr(VObj(map[]));
              name == Member(req.methodName).s
              && match invoke(name, params)
                 case Returned(v) => r.response.body == RpcResult(v)
                 case Threw(e) => r.response.body == RpcError(INTERNAL_ERROR, e)
  {
    var name := Member(req.methodName);
    var id := Member(req.id);
    if name.VList? || name.VObj? then Escaped("unhashable type")
    else if !(name.VStr? && name.s in METHODS) then
      Answered(Response(JSONRPC_VERSION, RpcError(METHOD_NOT_FOUND, "Method not found: " + Show(name)), id), None)
    else
      var params := if req.params.Some? then req.params.value else VObj(map[]);
      var body := match invoke(name.s, params)
                  case Returned(v) => RpcResult(v)
                  case Threw(e) => RpcError(INTERNAL_ERROR, e);
      Answered(Response(JSONRPC_VERSION, body, id), Some(name.s))
  }

  /** The dispatcher is deterministic in the method's outcome: two method
      implementations that behave alike on the request's name and params
      give the same answer, and a request for an unknown method gets the same
      answer whatever the implementations do. */
  lemma HandleRequestDependsOnlyOnCall(req: Request, f: (string, Value) -> Invocation,
                                        g: (string, Value) -> Invocation)
    requires Member(req.methodName).VStr? && Member(req.methodName).s in METHODS ==>
               f(Member(req.methodName).s, req.params.GetOr(VObj(map[]))) ==
               g(Member(req.methodName).s, req.params.GetOr(VObj(map[])))
    ensures HandleRequest(req, f) == HandleRequest(req, g)
  {
  }

  /** The response object as it is serialised: "jsonrpc", "id" and exactly
      one of "result" or "error", the error an object with "code" and
      "message". */
  function ResponseToJson(resp: Response): (v: Value)
    ensures v.VObj? && "jsonrpc" in v.fields && "id" in v.fields
    ensures v.fields.Keys == {"jsonrpc", "id", if resp.body.RpcResult? then "result" else "error"}
    ensures ("result" in v.fields) != ("error" in v.fields)
  {
    var head := map["jsonrpc" := VStr(resp.jsonrpc), "id" := resp.id];
    match resp.body
    case RpcResult(x) => VObj(head["result" := x])
    case RpcError(code, message) => VObj(head["error" := VObj(map["code" := VInt(code), "message" := VStr(message)])])
  }

  /** Reading a response object back: the members a JSON-RPC client looks at. */
  function ResponseFromJson(v: Value): (r: Option<Response>)
    ensures r.Some? ==> v.VObj? && "id" in v.fields && r.value.id == v.fields["id"]
  {
    if !v.VObj? then None
    else
      var f := v.fields;
      if !("jsonrpc" in f && f["jsonrpc"].VStr? && "id" in f) then None
      else if "result" in f && "error" !in f then Some(Response(f["jsonrpc"].s, RpcResult(f["result"]), f["id"]))
      else if "error" in f && "result" !in f && f["error"].VObj? then
        var e := f["error"].fields;
        if "code" in e && e["code"].VInt? && "message" in e && e["message"].VStr? then
          Some(Response(f["jsonrpc"].s, RpcError(e["code"].i, e["message"].s), f["id"]))
        else None
      else None
  }

  /** Serialising a response and reading it back gives the same response. */
  lemma ResponseJsonRoundTrip(resp: Response)
    ensures ResponseFromJson(ResponseToJson(resp)) == Some(resp)
  {
    var v := ResponseToJson(resp);
    assert "jsonrpc" in v.fields && v.fields["jsonrpc"] == VStr(resp.jsonrpc);
    match resp.body
    case RpcResult(x) =>
      assert v.fields["result"] == x;
    case RpcError(code, message) =>
      var e := v.fields["error"].fields;
      assert e["code"] == VInt(code) && e["message"] == VStr(message);
  }

  // ---------------------------------------------------------------------
  // Timeframes
  // ---------------------------------------------------------------------

  // MetaTrader 5 timeframe codes, as the MetaTrader5 library defines them.
  const TIMEFRAME_M1: int := 1
  const TIMEFRAME_M5: int := 5
  const TIMEFRAME_M15: int := 15
  const TIMEFRAME_M30: int := 30
  const TIMEFRAME_H1: int := 16385
  const TIMEFRAME_H4: int := 16388
  const TIMEFRAME_D1: int := 16408
  const TIMEFRAME_W1: int := 32769
  const TIMEFRAME_MN1: int := 49153

  /** The timeframe table both servers use. */
  const TIMEFRAMES: map<string, int> := map[
    "M1" := TIMEFRAME_M1, "M5" := TIMEFRAME_M5, "M15" := TIMEFRAME_M15, "M30" := TIMEFRAME_M30,
    "H1" := TIMEFRAME_H1, "H4" := TIMEFRAME_H4, "D1" := TIMEFRAME_D1, "W1" := TIMEFRAME_W1,
    "MN1" := TIMEFRAME_MN1]

  /** `timeframe_map.get(timeframe, fallback)`. */
  function TimeframeCode(name: string, fallback: int): (code: int)
    ensures name in TIMEFRAMES ==> code == TIMEFRAMES[name]
    ensures name !in TIMEFRAMES ==> code == fallback
  {
    Get(TIMEFRAMES, name).GetOr(fallback)
  }

  /** The table read backwards: the name of a timeframe code. */
  function TimeframeName(code: int): (r: Option<string>)
    ensures r.Some? ==> r.value in TIMEFRAMES && TIMEFRAMES[r.value] == code
  {
    if code == TIMEFRAME_M1 then Some("M1")
    else if code == TIMEFRAME_M5 then Some("M5")
    else if code == TIMEFRAME_M15 then Some("M15")
    else if code == TIMEFRAME_M30 then Some("M30")
    else if code == TIMEFRAME_H1 then Some("H1")
    else if code == TIMEFRAME_H4 then Some("H4")
    else if code == TIMEFRAME_D1 then Some("D1")
    else if code == TIMEFRAME_W1 then Some("W1")
    else if code == TIMEFRAME_MN1 then Some("MN1")
    else None
  }

  /** The table is one-to-one: every name in it is recovered from its code,
      so two names never share a timeframe. */
  lemma TimeframeTableInjective(name: string, other: string)
    ensures name in TIMEFRAMES ==> TimeframeName(TIMEFRAMES[name]) == Some(name)
    ensures name in TIMEFRAMES && other in TIMEFRAMES && name != other ==> TIMEFRAMES[name] != TIMEFRAMES[other]
  {
  }

  /** The standalone server falls back to one minute (mcp_server_standalone.py)
      while the REST server falls back to one hour (api_server.py): the two
      agree on every name in the table and differ on every other name. */
  lemma TimeframeFallbacksDiffer(name: string)
    ensures name in TIMEFRAMES ==> TimeframeCode(name, TIMEFRAME_M1) == TimeframeCode(name, TIMEFRAME_H1)
    ensures name !in TIMEFRAMES ==> TimeframeCode(name, TIMEFRAME_M1) == TIMEFRAME_M1
                                    && TimeframeCode(name, TIMEFRAME_H1) == TIMEFRAME_H1
  {
  }

  // ---------------------------------------------------------------------
  // Result wrapping
  // ---------------------------------------------------------------------

  /** A `{"status": "success", ...}` or `{"status": "error", "message": ...}`
      dictionary. */
  datatype Wrapped<T> = Success(data: T) | Failure(message: string)

  datatype RatesReply = RatesReply(symbol: Symbol, timeframe: string, count: nat, data: seq<Mt5Handler.Bar>)

  /** `get_rates`: the requested name is resolved through the table with one
      minute as the fallback, the handler is asked for that code (`rates` is
      what the provider answers for a code) and the reply repeats the name as
      given; no rows is "No data available". */
  function GetRates(h: Mt5Handler.Handler, symbol: Symbol, timeframe: string,
                    rates: int -> Option<seq<Mt5Handler.Bar>>): (r: Wrapped<RatesReply>)
    ensures var bars := Mt5Handler.GetRates(h, rates(TimeframeCode(timeframe, TIMEFRAME_M1)));
            if bars == [] then r == Failure("No data available")
            else r.Success? && r.data.data == bars && r.data.count == |bars|
    ensures r.Success? ==> r.data.symbol == symbol && r.data.timeframe == timeframe
  {
    var tf := TimeframeCode(timeframe, TIMEFRAME_M1);
    var bars := Mt5Handler.GetRates(h, rates(tf));
    if bars != [] then Success(RatesReply(symbol, timeframe, |bars|, bars))
    else Failure("No data available")
  }

  /** An unrecognised timeframe name asks the provider for one-minute bars. */
  lemma UnknownTimeframeIsOneMinute(h: Mt5Handler.Handler, symbol: Symbol, timeframe: string,
                                    rates: int -> Option<seq<Mt5Handler.Bar>>)
    requires timeframe !in TIMEFRAMES
    ensures var asked := GetRates(h, symbol, timeframe, rates);
            var m1 := GetRates(h, symbol, "M1", rates);
            asked.Success? <==> m1.Success?
    ensures GetRates(h, symbol, timeframe, rates).Success? ==>
              GetRates(h, symbol, timeframe, rates).data.data == GetRates(h, symbol, "M1", rates).data.data
  {
  }

  /** `get_tick`: the handler's tick, or "Failed to get tick for <symbol>". */
  function GetTick(h: Mt5Handler.Handler, symbol: Symbol, tick: Option<Tick>): (r: Wrapped<Tick>)
    ensures r.Success? <==> h.connected && tick.Some?
    ensures r.Success? ==> r.data == tick.value
    ensures r.Failure? ==> r.message == "Failed to get tick for " + symbol
  {
    match Mt5Handler.GetTickData(h, tick)
    case Some(t) => Success(t)
    case None => Failure("Failed to get tick for " + symbol)
  }

  /** `get_account_info`: the handler's account record, or "Not connected to
      MT5" whenever there is none, including a connected terminal whose
      account query came back empty. */
  function GetAccountInfo(h: Mt5Handler.Handler, info: Option<Mt5Handler.Account>): (r: Wrapped<Mt5Handler.Account>)
    ensures r.Success? <==> h.connected && info.Some?
    ensures r.Success? ==> r.data == info.value
    ensures r.Failure? ==> r.message == Mt5Handler.NOT_CONNECTED
  {
    match Mt5Handler.GetAccountInfo(h, info)
    case Some(a) => Success(a)
    case None => Failure(Mt5Handler.NOT_CONNECTED)
  }

  /** After `disconnect_mt5` every wrapped query fails, whatever the provider
      would answer; after a successful `connect_mt5` the wrappers pass the
      provider's answers through. */
  lemma WrappersFollowConnection(h: Mt5Handler.Handler, path: Option<string>, account: Option<Mt5Handler.Account>,
                                 symbol: Symbol, tick: Option<Tick>, info: Option<Mt5Handler.Account>)
    ensures var down := Mt5Handler.Disconnect(h).0;
            GetTick(down, symbol, tick) == Failure("Failed to get tick for " + symbol)
            && GetAccountInfo(down, info) == Failure(Mt5Handler.NOT_CONNECTED)
    ensures var c := Mt5Handler.Connect(h, path, true, account);
            c.ok ==> (GetTick(c.handler, symbol, tick).Success? <==> tick.Some?)
                     && (GetAccountInfo(c.handler, info).Success? <==> info.Some?)
  {
  }
}

=== FILE: mt5_handler.dfy ===
/** The provider wrapper of mt5_handler.py. Its state is the `connected`
    flag (and the account record read at connect time); every query and
    trade method first checks the flag and returns its "empty" value when it
    is down. The trade methods build a request dictionary from a small
    decision table over the order side, the optional price, stop-loss and
    take-profit, and hand it to `order_send`; the table is modelled as a
    pure function separate from the provider call, whose answer is an
    oracle parameter. */
module Mt5Handler {
  import opened Common

  // MetaTrader 5 enumeration values, as the MetaTrader5 library defines them.
  const ORDER_TYPE_BUY: int := 0
  const ORDER_TYPE_SELL: int := 1
  const ORDER_TYPE_BUY_LIMIT: int := 2
  const ORDER_TYPE_SELL_LIMIT: int := 3
  const ORDER_TYPE_BUY_STOP: int := 4
  const ORDER_TYPE_SELL_STOP: int := 5
  const ORDER_TYPE_BUY_STOP_LIMIT: int := 6
  const ORDER_TYPE_SELL_STOP_LIMIT: int := 7
  const POSITION_TYPE_BUY: int := 0
  const TRADE_ACTION_DEAL: int := 1
  const TRADE_ACTION_SLTP: int := 6
  const TRADE_RETCODE_DONE: int := 10009

  /** The slippage allowance every market request carries. */
  const DEVIATION: int := 10

  const NOT_CONNECTED := "Not connected to MT5"

  datatype Account = Account(login: int, server: string, balance: Price, currency: string)

  datatype Handler = Handler(connected: bool, accountInfo: Option<Account>)

  // ---------------------------------------------------------------------
  // Connection state
  // ---------------------------------------------------------------------

  /** Which `initialize` overload `connect` called. */
  datatype InitCall = InitWithPath(path: string) | InitDefault

  /** The new handler, the return value, the `initialize` call made and
      whether `shutdown` was called. */
  datatype ConnectOutcome = ConnectOutcome(handler: Handler, ok: bool, init: InitCall, shutdown: bool)

  /** `connect`. `initOk` is what `initialize` answers and `account` what
      `account_info` answers. The flag is set only when both succeed; when
      the account is missing the terminal is shut down again. A failure
      leaves the flag as it was. */
  function Connect(h: Handler, path: Option<string>, initOk: bool, account: Option<Account>): (r: ConnectOutcome)
    ensures r.init == if Truthy(path) then InitWithPath(path.value) else InitDefault
    ensures r.ok <==> initOk && account.Some?
    ensures r.ok ==> r.handler == Handler(true, account)
    ensures !r.ok ==> r.handler.connected == h.connected
    ensures r.shutdown <==> initOk && account.None?
    ensures !initOk ==> r.handler == h
  {
    var init := if Truthy(path) then InitWithPath(path.value) else InitDefault;
    if !initOk then ConnectOutcome(h, false, init, false)
    else if account.None? then ConnectOutcome(h.(accountInfo := None), false, init, true)
    else ConnectOutcome(Handler(true, account), true, init, false)
  }

  /** `disconnect`: shut down only when connected; afterwards the flag is
      down. The second component says whether `shutdown` was called. */
  function Disconnect(h: Handler): (r: (Handler, bool))
    ensures !r.0.connected
    ensures r.1 <==> h.connected
    ensures r.0.accountInfo == h.accountInfo
  {
    if h.connected then (h.(connected := false), true) else (h, false)
  }

  /** Disconnecting twice shuts the terminal down at most once and leaves the
      same handler as disconnecting once. */
  lemma DisconnectIdempotent(h: Handler)
    ensures Disconnect(Disconnect(h).0) == (Disconnect(h).0, false)
  {
  }

  /** Connecting then disconnecting leaves the flag down whatever the
      provider answered. */
  lemma ConnectThenDisconnect(h: Handler, path: Option<string>, initOk: bool, account: Option<Account>)
    ensures !Disconnect(Connect(h, path, initOk, account).handler).0.connected
    ensures Disconnect(Connect(h, path, initOk, account).handler).1 <==>
              (initOk && account.Some?) || (!(initOk && account.Some?) && h.connected)
  {
  }

  // ---------------------------------------------------------------------
  // Queries
  // ---------------------------------------------------------------------

  /** `get_account_info`: `None` when not connected, otherwise what the
      provider answers. */
  function GetAccountInfo(h: Handler, info: Option<Account>): (r: Option<Account>)
    ensures !h.connected ==> r.None?
    ensures h.connected ==> r == info
  {
    if !h.connected then None else info
  }

  datatype SymbolRecord = SymbolRecord(name: string, path: string, description: string, bid: Price, ask: Price)

  /** `get_symbols`: `[]` when not connected, otherwise every symbol the
      provider lists. */
  function GetSymbols(h: Handler, symbols: seq<SymbolRecord>): (r: seq<SymbolRecord>)
    ensures !h.connected ==> r == []
    ensures h.connected ==> r == symbols
  {
    if !h.connected then [] else symbols
  }

  /** `get_tick_data`: `None` when not connected or when the provider has no
      tick. */
  function GetTickData(h: Handler, tick: Option<Tick>): (r: Option<Tick>)
    ensures r.Some? <==> h.connected && tick.Some?
    ensures r.Some? ==> r == tick
  {
    if !h.connected then None else tick
  }

  datatype Bar = Bar(time: int, open: Price, high: Price, low: Price, close: Price, tickVolume: int)

  /** `get_rates`: an empty frame when not connected or when the provider
      returns nothing or no rows. */
  function GetRates(h: Handler, rates: Option<seq<Bar>>): (r: seq<Bar>)
    ensures r != [] <==> h.connected && rates.Some? && rates.value != []
    ensures r != [] ==> r == rates.value
  {
    if !h.connected then []
    else if rates.Some? && |rates.value| > 0 then rates.value
    else []
  }

  datatype Position = Position(ticket: int, symbol: Symbol, posType: int, volume: Price,
                               priceOpen: Price, sl: Price, tp: Price)

  datatype PositionView = PositionView(ticket: int, symbol: Symbol, side: string, volume: Price,
                                       priceOpen: Price, sl: Price, tp: Price)

  function ViewPosition(p: Position): PositionView {
    PositionView(p.ticket, p.symbol, if p.posType == POSITION_TYPE_BUY then "BUY" else "SELL",
                 p.volume, p.priceOpen, p.sl, p.tp)
  }

  /** `get_positions`: `[]` when not connected or when the provider returns
      `None`; otherwise one record per position, labelled "BUY" for a buy
      position and "SELL" for any other type. */
  function GetPositions(h: Handler, positions: Option<seq<Position>>): (r: seq<PositionView>)
    ensures |r| == if h.connected && positions.Some? then |positions.value| else 0
    ensures forall i :: 0 <= i < |r| ==>
              r[i].ticket == positions.value[i].ticket
              && r[i].side == (if positions.value[i].posType == POSITION_TYPE_BUY then "BUY" else "SELL")
    ensures forall i :: 0 <= i < |r| ==>
              r[i].symbol == positions.value[i].symbol && r[i].volume == positions.value[i].volume
              && r[i].priceOpen == positions.value[i].priceOpen
              && r[i].sl == positions.value[i].sl && r[i].tp == positions.value[i].tp
  {
    if !h.connected || positions.None? then []
    else
      var ps := positions.value;
      seq(|ps|, i requires 0 <= i < |ps| => ViewPosition(ps[i]))
  }

  datatype PendingOrder = PendingOrder(ticket: int, symbol: Symbol, orderType: int, volume: Price, priceOpen: Price)

  datatype OrderView = OrderView(ticket: int, symbol: Symbol, typeName: string, volume: Price, priceOpen: Price)

  /** `get_orders`: `[]` when not connected or when the provider returns
      `None`; otherwise one record per order with its type code named. */
  function GetOrders(h: Handler, orders: Option<seq<PendingOrder>>): (r: seq<OrderView>)
    ensures |r| == if h.connected && orders.Some? then |orders.value| else 0
    ensures forall i :: 0 <= i < |r| ==>
              r[i].ticket == orders.value[i].ticket && r[i].typeName == OrderTypeName(orders.value[i].orderType)
    ensures forall i :: 0 <= i < |r| ==>
              r[i].symbol == orders.value[i].symbol && r[i].volume == orders.value[i].volume
              && r[i].priceOpen == orders.value[i].priceOpen
  {
    if !h.connected || orders.None? then []
    else
      var os := orders.value;
      seq(|os|, i requires 0 <= i < |os| =>
        OrderView(os[i].ticket, os[i].symbol, OrderTypeName(os[i].orderType), os[i].volume, os[i].priceOpen))
  }

  // ---------------------------------------------------------------------
  // Order-type names
  // ---------------------------------------------------------------------

  /** `_get_order_type_name`: the eight order kinds by name, anything else
      "UNKNOWN". The buy-side kinds are the even codes. */
  function OrderTypeName(code: int): (r: string)
    ensures r == "UNKNOWN" <==> !(0 <= code < 8)
    ensures 0 <= code < 8 ==> |r| >= 3 && (r[0] == 'B' <==> code % 2 == 0)
  {
    if code == ORDER_TYPE_BUY then "BUY"
    else if code == ORDER_TYPE_SELL then "SELL"
    else if code == ORDER_TYPE_BUY_LIMIT then "BUY_LIMIT"
    else if code == ORDER_TYPE_SELL_LIMIT then "SELL_LIMIT"
    else if code == ORDER_TYPE_BUY_STOP then "BUY_STOP"
    else if code == ORDER_TYPE_SELL_STOP then "SELL_STOP"
    else if code == ORDER_TYPE_BUY_STOP_LIMIT then "BUY_STOP_LIMIT"
    else if code == ORDER_TYPE_SELL_STOP_LIMIT then "SELL_STOP_LIMIT"
    else "UNKNOWN"
  }

  /** The inverse table: the code a name stands for. */
  function OrderTypeCode(name: string): (r: Option<int>)
    ensures r.Some? ==> 0 <= r.value < 8
  {
    if name == "BUY" then Some(ORDER_TYPE_BUY)
    else if name == "SELL" then Some(ORDER_TYPE_SELL)
    else if name == "BUY_LIMIT" then Some(ORDER_TYPE_BUY_LIMIT)
    else if name == "SELL_LIMIT" then Some(ORDER_TYPE_SELL_LIMIT)
    else if name == "BUY_STOP" then Some(ORDER_TYPE_BUY_STOP)
    else if name == "SELL_STOP" then Some(ORDER_TYPE_SELL_STOP)
    else if name == "BUY_STOP_LIMIT" then Some(ORDER_TYPE_BUY_STOP_LIMIT)
    else if name == "SELL_STOP_LIMIT" then Some(ORDER_TYPE_SELL_STOP_LIMIT)
    else None
  }

  /** The name table is a bijection between the eight codes and eight
      distinct names; every other code is "UNKNOWN", which names no code. */
  lemma OrderTypeNamesRoundTrip(code: int, name: string)
    ensures OrderTypeName(code) != "UNKNOWN" <==> 0 <= code < 8
    ensures 0 <= code < 8 ==> OrderTypeCode(OrderTypeName(code)) == Some(code)
    ensures OrderTypeCode(name).Some? ==> OrderTypeName(OrderTypeCode(name).value) == name
    ensures OrderTypeCode("UNKNOWN") == None
  {
  }

  // ---------------------------------------------------------------------
  // Trade requests
  // ---------------------------------------------------------------------

  /** A value of the request dictionary. */
  datatype Field = Int(i: int) | Text(s: string) | Decimal(d: Price)

  /** The keys of a request dictionary. */
  datatype Key =
    | ActionKey | PositionKey | SymbolKey | VolumeKey | MagicKey | CommentKey
    | DeviationKey | TypeKey | PriceKey | StopLossKey | TakeProfitKey

  /** The dictionary key as the terminal receives it. */
  function KeyName(k: Key): string {
    match k
    case ActionKey => "action"
    case PositionKey => "position"
    case SymbolKey => "symbol"
    case VolumeKey => "volume"
    case MagicKey => "magic"
    case CommentKey => "comment"
    case DeviationKey => "deviation"
    case TypeKey => "type"
    case PriceKey => "price"
    case StopLossKey => "sl"
    case TakeProfitKey => "tp"
  }

  /** Distinct keys have distinct names, so the enumeration loses nothing. */
  lemma KeyNamesDistinct(a: Key, b: Key)
    ensures KeyName(a) == KeyName(b) <==> a == b
  {
  }

  type Request = map<Key, Field>

  /** What `symbol_info` reports about a symbol. */
  datatype SymbolInfo = SymbolInfo(visible: bool, bid: Price, ask: Price)

  /** What `order_send` answers. */
  datatype TradeResult = TradeResult(retcode: int, order: int, deal: int, volume: Price,
                                     price: Price, comment: string)

  /** The dictionary a trade method returns: a fill (`success: True` with the
      result's fields), the modify acknowledgement, a failure (`success:
      False`, an error text and, after a rejected send, the retcode), or an
      exception that escapes the method. */
  datatype TradeReply =
    | Filled(result: TradeResult)
    | Modified(message: string)
    | Failed(error: string, retcode: Option<int>)
    | Raised(error: string)

  /** The request handed to `order_send`, if any, and the reply. */
  datatype Attempt = Attempt(sent: Option<Request>, reply: TradeReply)

  datatype Side = Buy | Sell

  function SideName(side: Side): string {
    match side
    case Buy => "BUY"
    case Sell => "SELL"
  }

  function SideCode(side: Side): int {
    match side
    case Buy => ORDER_TYPE_BUY
    case Sell => ORDER_TYPE_SELL
  }

  function Opposite(side: Side): Side {
    match side
    case Buy => Sell
    case Sell => Buy
  }

  /** The order side `place_order` reads from its `order_type` argument,
      compared after upper-casing. */
  function ParseSide(orderType: string): (r: Option<Side>)
    ensures r.Some? <==> Upper(orderType) in {"BUY", "SELL"}
    ensures r.Some? ==> SideName(r.value) == Upper(orderType)
  {
    var u := Upper(orderType);
    if u == "BUY" then Some(Buy) else if u == "SELL" then Some(Sell) else None
  }

  lemma UpperLower(s: string)
    ensures Upper(Lower(s)) == Upper(s) && Upper(Upper(s)) == Upper(s)
  {
    assert forall i :: 0 <= i < |s| ==> UpperChar(LowerChar(s[i])) == UpperChar(s[i]);
  }

  /** The side is read case-insensitively: any casing of a side's name
      parses to that side, and a string parses like its upper- and
      lower-cased forms. */
  lemma ParseSideIgnoresCase(s: string, side: Side)
    ensures ParseSide(Lower(s)) == ParseSide(s) && ParseSide(Upper(s)) == ParseSide(s)
    ensures ParseSide(SideName(side)) == Some(side)
    ensures ParseSide(Lower(SideName(side))) == Some(side)
  {
    UpperLower(s);
    UpperLower(SideName(side));
    assert Upper("BUY") == "BUY";
    assert Upper("SELL") == "SELL";
  }

  /** Add `key` only when a value is given. */
  function WithOptional(req: Request, key: Key, v: Option<Price>): (r: Request)
    ensures r.Keys == if v.Some? then req.Keys + {key} else req.Keys
    ensures v.Some? ==> r[key] == Decimal(v.value)
    ensures forall k :: k in req && k != key ==> r[k] == req[k]
  {
    if v.Some? then req[key := Decimal(v.value)] else req
  }

  /** The keys every market deal of `place_order` carries. */
  const DEAL_KEYS: set<Key> := {ActionKey, SymbolKey, VolumeKey, MagicKey, CommentKey, DeviationKey, TypeKey, PriceKey}

  /** The part of the `place_order` request that does not depend on the
      optional levels. */
  function MarketDeal(symbol: Symbol, side: Side, volume: Price, price: Option<Price>,
                      comment: string, magic: int, info: SymbolInfo): (r: Request)
    ensures r.Keys == DEAL_KEYS
    ensures r[ActionKey] == Int(TRADE_ACTION_DEAL) && r[SymbolKey] == Text(symbol)
    ensures r[VolumeKey] == Decimal(volume) && r[DeviationKey] == Int(DEVIATION)
    ensures r[MagicKey] == Int(magic) && r[CommentKey] == Text(comment)
    ensures r[TypeKey] == Int(if side == Buy then ORDER_TYPE_BUY else ORDER_TYPE_SELL)
    ensures r[PriceKey] == Decimal(if price.Some? then price.value else if side == Buy then info.ask else info.bid)
  {
    var market := if side == Buy then info.ask else info.bid;
    map[ActionKey := Int(TRADE_ACTION_DEAL), SymbolKey := Text(symbol),
        VolumeKey := Decimal(volume), MagicKey := Int(magic),
        CommentKey := Text(comment), DeviationKey := Int(DEVIATION),
        TypeKey := Int(SideCode(side)),
        PriceKey := Decimal(if price.Some? then price.value else market)]
  }

  /** The request `place_order` builds for a resolved symbol and side: a
      market deal at the explicit price, or else at the ask for a buy and at
      the bid for a sell; "sl" and "tp" appear only when given. */
  function OrderRequest(symbol: Symbol, side: Side, volume: Price, price: Option<Price>,
                        sl: Option<Price>, tp: Option<Price>, comment: string, magic: int,
                        info: SymbolInfo): (r: Request)
    ensures r.Keys == DEAL_KEYS + (if sl.Some? then {StopLossKey} else {}) + (if tp.Some? then {TakeProfitKey} else {})
    ensures r[ActionKey] == Int(TRADE_ACTION_DEAL) && r[SymbolKey] == Text(symbol)
    ensures r[VolumeKey] == Decimal(volume) && r[DeviationKey] == Int(DEVIATION)
    ensures r[MagicKey] == Int(magic) && r[CommentKey] == Text(comment)
    ensures r[TypeKey] == Int(if side == Buy then ORDER_TYPE_BUY else ORDER_TYPE_SELL)
    ensures price.Some? ==> r[PriceKey] == Decimal(price.value)
    ensures price.None? && side == Buy ==> r[PriceKey] == Decimal(info.ask)
    ensures price.None? && side == Sell ==> r[PriceKey] == Decimal(info.bid)
    ensures sl.Some? ==> r[StopLossKey] == Decimal(sl.value)
    ensures tp.Some? ==> r[TakeProfitKey] == Decimal(tp.value)
  {
    var deal := MarketDeal(symbol, side, volume, price, comment, magic, info);
    WithOptional(WithOptional(deal, StopLossKey, sl), TakeProfitKey, tp)
  }

  /** `place_order`. `info` is what `symbol_info` answers, `selectOk` what
      `symbol_select` answers (asked only for a hidden symbol) and `result`
      what `order_send` answers to the request, if one is sent. */
  function PlaceOrder(h: Handler, symbol: Symbol, orderType: string, volume: Price,
                      price: Option<Price>, sl: Option<Price>, tp: Option<Price>,
                      comment: string, magic: int, info: Option<SymbolInfo>, selectOk: bool,
                      result: TradeResult): (r: Attempt)
    ensures !h.connected ==> r == Attempt(None, Failed(NOT_CONNECTED, None))
    ensures h.connected && info.None? ==> r == Attempt(None, Failed("Symbol " + symbol + " not found", None))
    ensures h.connected && info.Some? && !info.value.visible && !selectOk ==>
              r == Attempt(None, Failed("Failed to select symbol " + symbol, None))
    ensures h.connected && info.Some? && (info.value.visible || selectOk) && ParseSide(orderType).None? ==>
              r == Attempt(None, Failed("Invalid order type: " + orderType, None))
    ensures r.sent.Some? <==>
              h.connected && info.Some? && (info.value.visible || selectOk) && ParseSide(orderType).Some?
    ensures r.sent.Some? ==>
              r.sent.value == OrderRequest(symbol, ParseSide(orderType).value, volume, price, sl, tp,
                                           comment, magic, info.value)
    ensures r.sent.Some? ==> (r.reply == Filled(result) <==> result.retcode == TRADE_RETCODE_DONE)
    ensures r.sent.Some? && result.retcode != TRADE_RETCODE_DONE ==>
              r.reply == Failed("Order failed: " + result.comment, Some(result.retcode))
    ensures r.reply.Filled? ==> r.sent.Some?
  {
    if !h.connected then Attempt(None, Failed(NOT_CONNECTED, None))
    else if info.None? then Attempt(None, Failed("Symbol " + symbol + " not found", None))
    else if !info.value.visible && !selectOk then
      Attempt(None, Failed("Failed to select symbol " + symbol, None))
    else match ParseSide(orderType)
      case None => Attempt(None, Failed("Invalid order type: " + orderType, None))
      case Some(side) =>
        var request := OrderRequest(symbol, side, volume, price, sl, tp, comment, magic, info.value);
        if result.retcode == TRADE_RETCODE_DONE then Attempt(Some(request), Filled(result))
        else Attempt(Some(request), Failed("Order failed: " + result.comment, Some(result.retcode)))
  }

  /** `close_position`. `positions` is what `positions_get(ticket=...)`
      answers (`None` or a tuple), `info` what `symbol_info` answers for the
      position's symbol. The request is the opposite market deal for the
      position's full volume: a buy position is sold at the bid, any other
      position bought at the ask. A missing symbol record raises when its
      price is read. */
  function ClosePosition(h: Handler, ticket: int, positions: Option<seq<Position>>,
                         info: Option<SymbolInfo>, result: TradeResult): (r: Attempt)
    ensures !h.connected ==> r == Attempt(None, Failed(NOT_CONNECTED, None))
    ensures h.connected && (positions.None? || positions.value == []) ==>
              r == Attempt(None, Failed("Position " + IntToString(ticket) + " not found", None))
    ensures r.sent.Some? <==> h.connected && positions.Some? && positions.value != [] && info.Some?
    ensures h.connected && positions.Some? && positions.value != [] && info.None? ==> r.reply.Raised?
    ensures r.sent.Some? ==>
              var p := positions.value[0];
              var req := r.sent.value;
              && req.Keys == {ActionKey, PositionKey, SymbolKey, VolumeKey, DeviationKey, TypeKey, PriceKey}
              && req[ActionKey] == Int(TRADE_ACTION_DEAL) && req[PositionKey] == Int(ticket)
              && req[SymbolKey] == Text(p.symbol) && req[VolumeKey] == Decimal(p.volume)
              && req[DeviationKey] == Int(DEVIATION)
              && req[TypeKey] == Int(if p.posType == POSITION_TYPE_BUY then ORDER_TYPE_SELL else ORDER_TYPE_BUY)
              && req[PriceKey] == Decimal(if p.posType == POSITION_TYPE_BUY then info.value.bid else info.value.ask)
    ensures r.sent.Some? ==> (r.reply == Filled(result) <==> result.retcode == TRADE_RETCODE_DONE)
    ensures r.sent.Some? && result.retcode != TRADE_RETCODE_DONE ==>
              r.reply == Failed("Failed to close position: " + result.comment, Some(result.retcode))
  {
    if !h.connected then Attempt(None, Failed(NOT_CONNECTED, None))
    else if positions.None? || positions.value == [] then
      Attempt(None, Failed("Position " + IntToString(ticket) + " not found", None))
    else
      var p := positions.value[0];
      var isBuy := p.posType == POSITION_TYPE_BUY;
      if info.None? then
        Attempt(None, Raised("'NoneType' object has no attribute '" + (if isBuy then "bid" else "ask") + "'"))
      else
        var request := map[ActionKey := Int(TRADE_ACTION_DEAL), PositionKey := Int(ticket),
                           SymbolKey := Text(p.symbol), VolumeKey := Decimal(p.volume),
                           DeviationKey := Int(DEVIATION),
                           TypeKey := Int(if isBuy then ORDER_TYPE_SELL else ORDER_TYPE_BUY),
                           PriceKey := Decimal(if isBuy then info.value.bid else info.value.ask)];
        if result.retcode == TRADE_RETCODE_DONE then Attempt(Some(request), Filled(result))
        else Attempt(Some(request), Failed("Failed to close position: " + result.comment, Some(result.retcode)))
  }

  /** Closing a position opened on one side sends the market deal a fresh
      order of the opposite side would send: opposite type, same symbol,
      the market price of that side, and the position's whole volume. */
  lemma CloseIsOppositeMarketOrder(h: Handler, ticket: int, p: Position, side: Side,
                                   info: SymbolInfo, result: TradeResult)
    requires h.connected && p.posType == SideCode(side)
    ensures var close := ClosePosition(h, ticket, Some([p]), Some(info), result).sent;
            var open := OrderRequest(p.symbol, Opposite(side), p.volume, None, None, None, "", 0, info);
            && close.Some?
            && close.value[TypeKey] == open[TypeKey] && close.value[PriceKey] == open[PriceKey]
            && close.value[SymbolKey] == open[SymbolKey] && close.value[VolumeKey] == open[VolumeKey]
  {
  }

  /** `modify_position`: a stop-loss/take-profit request for the position,
      each level taken from the argument when given and from the position
      otherwise. */
  function ModifyPosition(h: Handler, ticket: int, sl: Option<Price>, tp: Option<Price>,
                          positions: Option<seq<Position>>, result: TradeResult): (r: Attempt)
    ensures !h.connected ==> r == Attempt(None, Failed(NOT_CONNECTED, None))
    ensures h.connected && (positions.None? || positions.value == []) ==>
              r == Attempt(None, Failed("Position " + IntToString(ticket) + " not found", None))
    ensures r.sent.Some? <==> h.connected && positions.Some? && positions.value != []
    ensures r.sent.Some? ==>
              var p := positions.value[0];
              var req := r.sent.value;
              && req.Keys == {ActionKey, PositionKey, SymbolKey, StopLossKey, TakeProfitKey}
              && req[ActionKey] == Int(TRADE_ACTION_SLTP) && req[PositionKey] == Int(ticket)
              && req[SymbolKey] == Text(p.symbol)
              && req[StopLossKey] == Decimal(sl.GetOr(p.sl)) && req[TakeProfitKey] == Decimal(tp.GetOr(p.tp))
    ensures r.sent.Some? ==>
              r.reply == if result.retcode == TRADE_RETCODE_DONE then Modified("Position modified successfully")
                         else Failed("Failed to modify position: " + result.comment, Some(result.retcode))
  {
    if !h.connected then Attempt(None, Failed(NOT_CONNECTED, None))
    else if positions.None? || positions.value == [] then
      Attempt(None, Failed("Position " + IntToString(ticket) + " not found", None))
    else
      var p := positions.value[0];
      var request := map[ActionKey := Int(TRADE_ACTION_SLTP), PositionKey := Int(ticket),
                         SymbolKey := Text(p.symbol),
                         StopLossKey := Decimal(if sl.Some? then sl.value else p.sl),
                         TakeProfitKey := Decimal(if tp.Some? then tp.value else p.tp)];
      if result.retcode == TRADE_RETCODE_DONE then Attempt(Some(request), Modified("Position modified successfully"))
      else Attempt(Some(request), Failed("Failed to modify position: " + result.comment, Some(result.retcode)))
  }

  /** A modify that names neither level re-sends the position's current
      levels; naming one level leaves the other as it was. */
  lemma ModifyKeepsOmittedLevels(h: Handler, ticket: int, p: Position, level: Price, result: TradeResult)
    requires h.connected
    ensures var none := ModifyPosition(h, ticket, None, None, Some([p]), result).sent.value;
            none[StopLossKey] == Decimal(p.sl) && none[TakeProfitKey] == Decimal(p.tp)
    ensures var slOnly := ModifyPosition(h, ticket, Some(level), None, Some([p]), result).sent.value;
            slOnly[StopLossKey] == Decimal(level) && slOnly[TakeProfitKey] == Decimal(p.tp)
  {
  }

  /** The guard convention: with the flag down, every query returns its empty
      value and every trade method fails with "Not connected to MT5" without
      sending anything, whatever the provider would have answered. */
  lemma NotConnectedGuards(h: Handler, info: Option<Account>, symbols: seq<SymbolRecord>, tick: Option<Tick>,
                           rates: Option<seq<Bar>>, positions: Option<seq<Position>>,
                           orders: Option<seq<PendingOrder>>, symbol: Symbol, orderType: string,
                           volume: Price, price: Option<Price>, sl: Option<Price>, tp: Option<Price>,
                           symInfo: Option<SymbolInfo>, ticket: int, result: TradeResult)
    requires !h.connected
    ensures GetAccountInfo(h, info).None? && GetSymbols(h, symbols) == [] && GetTickData(h, tick).None?
    ensures GetRates(h, rates) == [] && GetPositions(h, positions) == [] && GetOrders(h, orders) == []
    ensures PlaceOrder(h, symbol, orderType, volume, price, sl, tp, "", 0, symInfo, true, result)
            == Attempt(None, Failed(NOT_CONNECTED, None))
    ensures ClosePosition(h, ticket, positions, symInfo, result) == Attempt(None, Failed(NOT_CONNECTED, None))
    ensures ModifyPosition(h, ticket, sl, tp, positions, result) == Attempt(None, Failed(NOT_CONNECTED, None))
  {
  }
}

=== FILE: tick_server.dfy ===
/** The dedicated streaming server of mt5_websocket_server.py: the registry
    of live clients and per-symbol subscriber sets, one cycle of the
    background tick collector, the fan-out broadcast with its two-phase
    clean-up of closed connections, and the dispatch of one inbound message.
    Sockets, threads and the event-loop hand-off are abstracted away: a
    client is an opaque handle, one collector cycle and one message are
    atomic steps, and every provider call is an oracle parameter. */
module TickServer {
  import opened Common

  /** An opaque handle for one open connection; only identity matters. */
  type Client = nat

  /** `clients` is the set of registered connections, `subscribed` maps each
      symbol to the set of connections interested in it, and `mt5Connected`
      is the provider-connection flag the collector consults. */
  datatype Server = Server(clients: set<Client>,
                           subscribed: map<Symbol, set<Client>>,
                           mt5Connected: bool)

  /** The registry's invariant: a symbol is a key only while some client
      is subscribed to it. */
  predicate NoEmptyKeys(s: Server) {
    forall k :: k in s.subscribed ==> s.subscribed[k] != {}
  }

  /** Every subscriber is a registered client. */
  predicate SubscribersLive(s: Server) {
    forall k :: k in s.subscribed ==> s.subscribed[k] <= s.clients
  }

  predicate Valid(s: Server) {
    NoEmptyKeys(s) && SubscribersLive(s)
  }

  /** The subscribers of `sym`, empty when the symbol is not a key. */
  function Members(s: Server, sym: Symbol): set<Client> {
    if sym in s.subscribed then s.subscribed[sym] else {}
  }

  /** `c` appears in no symbol's subscriber set. */
  predicate Unsubscribed(s: Server, c: Client) {
    forall k :: k in s.subscribed ==> c !in s.subscribed[k]
  }

  /** A new registry state together with the messages sent back to the
      client whose request produced it. */
  datatype Step = Step(server: Server, replies: seq<Reply>)

  // ---------------------------------------------------------------------
  // Registry operations
  // ---------------------------------------------------------------------

  /** `register_client`: add the connection and greet it. */
  function RegisterClient(s: Server, c: Client): (r: Step)
    ensures c in r.server.clients
    ensures r.server.clients - {c} == s.clients - {c}
    ensures r.server.subscribed == s.subscribed
    ensures r.server.mt5Connected == s.mt5Connected
    ensures r.replies == [Connected("Connected to MT5 WebSocket Server")]
  {
    Step(s.(clients := s.clients + {c}), [Connected("Connected to MT5 WebSocket Server")])
  }

  /** `unregister_client`: discard `c` from the clients and from every
      subscriber set, then delete every key whose set is now empty. */
  function UnregisterClient(s: Server, c: Client): (r: Server)
    ensures r.clients == s.clients - {c}
    ensures Unsubscribed(r, c)
    ensures NoEmptyKeys(r)
    ensures forall k :: k in r.subscribed <==> k in s.subscribed && s.subscribed[k] - {c} != {}
    ensures forall k, d :: d != c ==> (d in Members(r, k) <==> d in Members(s, k))
    ensures r.mt5Connected == s.mt5Connected
  {
    Server(s.clients - {c},
           map k | k in s.subscribed && s.subscribed[k] - {c} != {} :: s.subscribed[k] - {c},
           s.mt5Connected)
  }

  /** Unregistering a whole set of clients at once: the closed form of the
      clean-up pass that ends a broadcast. */
  function UnregisterAll(s: Server, gone: set<Client>): (r: Server)
    ensures r.clients == s.clients - gone
    ensures forall c :: c in gone ==> Unsubscribed(r, c)
    ensures forall k :: k in r.subscribed <==> k in s.subscribed && s.subscribed[k] - gone != {}
    ensures forall k, d :: d !in gone ==> (d in Members(r, k) <==> d in Members(s, k))
    ensures r.mt5Connected == s.mt5Connected
  {
    Server(s.clients - gone,
           map k | k in s.subscribed && s.subscribed[k] - gone != {} :: s.subscribed[k] - gone,
           s.mt5Connected)
  }

  /** Outcome of looking a symbol up at the provider (`symbol_info`). */
  datatype SymbolLookup = NotFound | Found(visible: bool)

  datatype SubscribeOutcome = SubscribeOutcome(server: Server, replies: seq<Reply>, ok: bool)

  /** `subscribe_symbol`. The client is added to the symbol's set BEFORE the
      provider is asked about the symbol, so an unknown or unselectable
      symbol still leaves the registration in place while the reply is an
      error. `selectOk` is what `symbol_select` answers; it is only asked
      when the symbol is not visible. */
  function SubscribeSymbol(s: Server, c: Client, sym: Symbol,
                           lookup: SymbolLookup, selectOk: bool): (r: SubscribeOutcome)
    ensures sym in r.server.subscribed
    ensures r.server.subscribed[sym] == Members(s, sym) + {c}
    ensures forall k :: k != sym ==> Get(r.server.subscribed, k) == Get(s.subscribed, k)
    ensures r.server.clients == s.clients && r.server.mt5Connected == s.mt5Connected
    ensures r.ok <==> lookup.Found? && (lookup.visible || selectOk)
    ensures |r.replies| == 1
    ensures r.ok ==> r.replies[0] == Subscription(sym, "subscribed")
    ensures lookup.NotFound? ==> r.replies[0] == Error("Symbol " + sym + " not found")
    ensures lookup.Found? && !r.ok ==> r.replies[0] == Error("Failed to select symbol " + sym)
  {
    var registered := s.(subscribed := s.subscribed[sym := Members(s, sym) + {c}]);
    match lookup
    case NotFound =>
      SubscribeOutcome(registered, [Error("Symbol " + sym + " not found")], false)
    case Found(visible) =>
      if !visible && !selectOk then
        SubscribeOutcome(registered, [Error("Failed to select symbol " + sym)], false)
      else
        SubscribeOutcome(registered, [Subscription(sym, "subscribed")], true)
  }

  /** `unsubscribe_symbol`: discard the pair if the symbol is a key, delete
      the key if its set is now empty, and always acknowledge. */
  function UnsubscribeSymbol(s: Server, c: Client, sym: Symbol): (r: Step)
    ensures r.replies == [Subscription(sym, "unsubscribed")]
    ensures c !in Members(r.server, sym)
    ensures sym in r.server.subscribed <==> sym in s.subscribed && s.subscribed[sym] - {c} != {}
    ensures sym in r.server.subscribed ==> r.server.subscribed[sym] == s.subscribed[sym] - {c}
    ensures forall k :: k != sym ==> Get(r.server.subscribed, k) == Get(s.subscribed, k)
    ensures r.server.clients == s.clients && r.server.mt5Connected == s.mt5Connected
    ensures sym !in s.subscribed ==> r.server == s
    ensures sym in s.subscribed && c !in s.subscribed[sym] && s.subscribed[sym] != {} ==> r.server == s
  {
    var server :=
      if sym !in s.subscribed then s
      else if s.subscribed[sym] - {c} == {} then s.(subscribed := s.subscribed - {sym})
      else if c !in s.subscribed[sym] then
        assert s.subscribed[sym] - {c} == s.subscribed[sym]; s
      else s.(subscribed := s.subscribed[sym := s.subscribed[sym] - {c}]);
    Step(server, [Subscription(sym, "unsubscribed")])
  }

  // ---------------------------------------------------------------------
  // Registry properties
  // ---------------------------------------------------------------------

  /** After `unregister_client(c)` the client is gone from everywhere and the
      registry invariant holds again. */
  lemma UnregisterPreservesValid(s: Server, c: Client)
    requires Valid(s)
    ensures Valid(UnregisterClient(s, c))
    ensures c !in UnregisterClient(s, c).clients && Unsubscribed(UnregisterClient(s, c), c)
  {
  }

  /** Subscribing a registered client keeps the invariant. */
  lemma SubscribePreservesValid(s: Server, c: Client, sym: Symbol, lookup: SymbolLookup, selectOk: bool)
    requires Valid(s) && c in s.clients
    ensures Valid(SubscribeSymbol(s, c, sym, lookup, selectOk).server)
  {
  }

  /** Unsubscribing keeps the invariant. */
  lemma UnsubscribePreservesValid(s: Server, c: Client, sym: Symbol)
    requires Valid(s)
    ensures Valid(UnsubscribeSymbol(s, c, sym).server)
  {
  }

  /** Set semantics: subscribing twice leaves the same registry as once. */
  lemma SubscribeIdempotent(s: Server, c: Client, sym: Symbol, lookup: SymbolLookup, selectOk: bool)
    ensures var once := SubscribeSymbol(s, c, sym, lookup, selectOk);
            SubscribeSymbol(once.server, c, sym, lookup, selectOk).server == once.server
  {
    var once := SubscribeSymbol(s, c, sym, lookup, selectOk);
    var twice := SubscribeSymbol(once.server, c, sym, lookup, selectOk);
    assert twice.server.subscribed == once.server.subscribed;
  }

  /** Unsubscribing twice is the same as unsubscribing once. */
  lemma UnsubscribeIdempotent(s: Server, c: Client, sym: Symbol)
    ensures var once := UnsubscribeSymbol(s, c, sym);
            UnsubscribeSymbol(once.server, c, sym) == once
  {
  }

  /** Unsubscribe followed by subscribe for the same pair leaves exactly the
      registry a plain subscribe would: the client is registered once, with
      no trace of the intermediate removal. */
  lemma ResubscribeIsSubscribe(s: Server, c: Client, sym: Symbol, lookup: SymbolLookup, selectOk: bool)
    ensures SubscribeSymbol(UnsubscribeSymbol(s, c, sym).server, c, sym, lookup, selectOk).server
         == SubscribeSymbol(s, c, sym, lookup, selectOk).server
  {
    var a := SubscribeSymbol(UnsubscribeSymbol(s, c, sym).server, c, sym, lookup, selectOk).server;
    var b := SubscribeSymbol(s, c, sym, lookup, selectOk).server;
    assert a.subscribed.Keys == b.subscribed.Keys;
    assert forall k :: k in a.subscribed ==> a.subscribed[k] == b.subscribed[k];
  }

  /** Registering a fresh client and unregistering it again restores the
      registry exactly. */
  lemma RegisterUnregisterRoundTrip(s: Server, c: Client)
    requires NoEmptyKeys(s) && c !in s.clients && Unsubscribed(s, c)
    ensures UnregisterClient(RegisterClient(s, c).server, c) == s
  {
    var r := UnregisterClient(RegisterClient(s, c).server, c);
    assert r.subscribed.Keys == s.subscribed.Keys;
    assert forall k :: k in r.subscribed ==> r.subscribed[k] == s.subscribed[k];
  }

  /** Unregistering one more client after a set of them is the same as
      unregistering the enlarged set at once. */
  lemma UnregisterAllStep(s: Server, gone: set<Client>, c: Client)
    ensures UnregisterClient(UnregisterAll(s, gone), c) == UnregisterAll(s, gone + {c})
  {
    var a := UnregisterClient(UnregisterAll(s, gone), c);
    var b := UnregisterAll(s, gone + {c});
    assert forall k :: k in s.subscribed ==> s.subscribed[k] - gone - {c} == s.subscribed[k] - (gone + {c});
    assert a.subscribed.Keys == b.subscribed.Keys;
  }

  // ---------------------------------------------------------------------
  // Broadcast
  // ---------------------------------------------------------------------

  /** `broadcast_tick`. Every subscriber of `sym` gets a send attempt; a
      client in `closed` is one whose send raises `ConnectionClosed`. Failing
      clients are collected during the pass and fully unregistered after
      it, so a failure never keeps the message from the other subscribers.
      `delivered` are the clients that received `TickEvent(t)`, `dropped`
      those that were unregistered. */
  method BroadcastTick(s: Server, sym: Symbol, t: Tick, closed: set<Client>)
    returns (s': Server, delivered: set<Client>, dropped: set<Client>)
    ensures sym !in s.subscribed ==> s' == s && delivered == {} && dropped == {}
    ensures delivered == Members(s, sym) - closed
    ensures dropped == Members(s, sym) * closed
    ensures dropped == {} ==> s' == s
    ensures dropped != {} ==> s' == UnregisterAll(s, dropped)
  {
    if sym !in s.subscribed {
      return s, {}, {};
    }
    var audience := s.subscribed[sym];
    var pending := audience;
    delivered, dropped := {}, {};
    while pending != {}
      invariant pending <= audience
      invariant delivered == (audience - pending) - closed
      invariant dropped == (audience - pending) * closed
      decreases pending
    {
      var client :| client in pending;
      if client in closed {
        dropped := dropped + {client};
      } else {
        delivered := delivered + {client};
      }
      pending := pending - {client};
    }
    s' := s;
    var rest := dropped;
    while rest != {}
      invariant rest <= dropped
      invariant rest == dropped ==> s' == s
      invariant rest != dropped ==> s' == UnregisterAll(s, dropped - rest)
      decreases rest
    {
      var client :| client in rest;
      if rest == dropped {
        assert UnregisterClient(s, client) == UnregisterAll(s, {client});
        assert dropped - (rest - {client}) == {client};
      } else {
        UnregisterAllStep(s, dropped - rest, client);
      }
      s' := UnregisterClient(s', client);
      assert dropped - rest + {client} == dropped - (rest - {client});
      rest := rest - {client};
    }
    assert dropped - rest == dropped;
  }

  /** The clean-up after a broadcast keeps the registry invariant and leaves
      no dropped client subscribed anywhere. */
  lemma BroadcastCleanupPreservesValid(s: Server, dropped: set<Client>)
    requires Valid(s)
    ensures Valid(UnregisterAll(s, dropped))
  {
  }

  // ---------------------------------------------------------------------
  // One collector cycle
  // ---------------------------------------------------------------------

  /** A broadcast the collector hands to the event loop. */
  datatype Emit = Emit(symbol: Symbol, tick: Tick)

  /** What a cycle leaves behind: the updated `last_ticks`, the symbols it
      fetched (in order) and the broadcasts it scheduled (in order). */
  datatype Cycle = Cycle(lastTicks: map<Symbol, Tick>, fetched: seq<Symbol>, emitted: seq<Emit>)

  /** The per-symbol rule of the collector, stated on its own: the tick to
      broadcast for `sym`, if any. A symbol without subscribers is not
      fetched; an unavailable tick changes nothing; otherwise the fetched
      tick is broadcast when it is the first one or its bid or ask moved. */
  function Decision(subscribed: map<Symbol, set<Client>>, lastTicks: map<Symbol, Tick>,
                    fetch: Symbol -> Option<Tick>, sym: Symbol): (r: Option<Tick>)
    requires sym in subscribed
    ensures r.Some? <==> subscribed[sym] != {} && fetch(sym).Some? && NeedsBroadcast(Get(lastTicks, sym), fetch(sym).value)
    ensures r.Some? ==> r == fetch(sym)
    ensures r.Some? && sym in lastTicks ==>
              r.value.bid != lastTicks[sym].bid || r.value.ask != lastTicks[sym].ask
  {
    if subscribed[sym] == {} then None
    else match fetch(sym)
      case None => None
      case Some(t) => if NeedsBroadcast(Get(lastTicks, sym), t) then Some(t) else None
  }

  /** Remembering a tick for one symbol does not change the decision for
      another. */
  lemma DecisionIgnoresOtherSymbols(subscribed: map<Symbol, set<Client>>, lastTicks: map<Symbol, Tick>,
                                    fetch: Symbol -> Option<Tick>, sym: Symbol, t: Tick, k: Symbol)
    requires k in subscribed && k != sym
    ensures Decision(subscribed, lastTicks[sym := t], fetch, k) == Decision(subscribed, lastTicks, fetch, k)
  {
  }

  /** The loop over the snapshot `order` of the registry's keys, threading
      `last_ticks` from one symbol to the next. */
  function Poll(subscribed: map<Symbol, set<Client>>, order: seq<Symbol>,
                lastTicks: map<Symbol, Tick>, fetch: Symbol -> Option<Tick>): (r: Cycle)
    requires forall k :: k in order ==> k in subscribed
    requires Distinct(order)
    ensures forall k :: k in r.fetched <==> k in order && subscribed[k] != {}
    ensures Distinct(r.fetched) && Distinct(r.emitted)
    ensures forall k, t :: Emit(k, t) in r.emitted <==> k in order && Decision(subscribed, lastTicks, fetch, k) == Some(t)
    ensures forall k :: Get(r.lastTicks, k) ==
              if k in order && Decision(subscribed, lastTicks, fetch, k).Some?
              then Decision(subscribed, lastTicks, fetch, k) else Get(lastTicks, k)
    decreases |order|
  {
    if order == [] then Cycle(lastTicks, [], [])
    else
      var sym := order[0];
      DistinctTail(order);
      if subscribed[sym] == {} then
        Poll(subscribed, order[1..], lastTicks, fetch)
      else
        match fetch(sym)
        case None =>
          var rest := Poll(subscribed, order[1..], lastTicks, fetch);
          DistinctCons(sym, rest.fetched);
          Cycle(rest.lastTicks, [sym] + rest.fetched, rest.emitted)
        case Some(t) =>
          if NeedsBroadcast(Get(lastTicks, sym), t) then
            var updated := lastTicks[sym := t];
            forall k | k in order[1..]
              ensures Decision(subscribed, updated, fetch, k) == Decision(subscribed, lastTicks, fetch, k)
            {
              DecisionIgnoresOtherSymbols(subscribed, lastTicks, fetch, sym, t, k);
            }
            var rest := Poll(subscribed, order[1..], updated, fetch);
            DistinctCons(sym, rest.fetched);
            DistinctCons(Emit(sym, t), rest.emitted);
            Cycle(rest.lastTicks, [sym] + rest.fetched, [Emit(sym, t)] + rest.emitted)
          else
            var rest := Poll(subscribed, order[1..], lastTicks, fetch);
            DistinctCons(sym, rest.fetched);
            Cycle(rest.lastTicks, [sym] + rest.fetched, rest.emitted)
  }

  /** One iteration of `tick_collector`'s outer loop. `order` is the
      snapshot `list(subscribed_symbols.keys())`; `fetch` stands for
      `get_tick_data`. While the provider is not connected the cycle does
      nothing at all. */
  function CollectorCycle(s: Server, order: seq<Symbol>, lastTicks: map<Symbol, Tick>,
                          fetch: Symbol -> Option<Tick>): (r: Cycle)
    requires Distinct(order)
    requires forall k :: k in order <==> k in s.subscribed
    ensures !s.mt5Connected ==> r.fetched == [] && r.emitted == [] && r.lastTicks == lastTicks
    ensures Distinct(r.fetched) && Distinct(r.emitted)
    ensures forall k :: k in r.fetched <==> s.mt5Connected && k in s.subscribed && s.subscribed[k] != {}
    ensures forall k, t :: Emit(k, t) in r.emitted <==>
              s.mt5Connected && k in s.subscribed && Decision(s.subscribed, lastTicks, fetch, k) == Some(t)
    ensures forall k :: Get(r.lastTicks, k) ==
              if s.mt5Connected && k in s.subscribed && Decision(s.subscribed, lastTicks, fetch, k).Some?
              then Decision(s.subscribed, lastTicks, fetch, k) else Get(lastTicks, k)
  {
    if !s.mt5Connected then Cycle(lastTicks, [], [])
    else Poll(s.subscribed, order, lastTicks, fetch)
  }

  /** Change detection across two consecutive cycles: once a cycle has
      broadcast tick `t` for `k`, the next cycle broadcasts for `k` exactly
      when the new tick's bid or ask differs from `t`, and remembers the new
      tick when it does. */
  lemma ConsecutiveCycles(s1: Server, order1: seq<Symbol>, s2: Server, order2: seq<Symbol>,
                          lastTicks: map<Symbol, Tick>, f: Symbol -> Option<Tick>,
                          g: Symbol -> Option<Tick>, k: Symbol, t: Tick, t2: Tick)
    requires Distinct(order1) && (forall x :: x in order1 <==> x in s1.subscribed)
    requires Distinct(order2) && (forall x :: x in order2 <==> x in s2.subscribed)
    requires Emit(k, t) in CollectorCycle(s1, order1, lastTicks, f).emitted
    requires s2.mt5Connected && k in s2.subscribed && s2.subscribed[k] != {} && g(k) == Some(t2)
    ensures var c2 := CollectorCycle(s2, order2, CollectorCycle(s1, order1, lastTicks, f).lastTicks, g);
            (Emit(k, t2) in c2.emitted <==> t2.bid != t.bid || t2.ask != t.ask)
            && (forall u :: Emit(k, u) in c2.emitted ==> u == t2)
            && Get(c2.lastTicks, k) == (if t2.bid != t.bid || t2.ask != t.ask then Some(t2) else Some(t))
  {
    var c1 := CollectorCycle(s1, order1, lastTicks, f);
    assert Get(c1.lastTicks, k) == Some(t);
  }

  // ---------------------------------------------------------------------
  // Inbound messages
  // ---------------------------------------------------------------------

  /** Result of `handle_message`: the new registry and the replies, or
      `Raised` when an exception escapes it (`.get` on JSON that is not an
      object, or a binary frame that does not decode, which is not the
      `JSONDecodeError` the handler catches). */
  datatype Handled = Handled(server: Server, replies: seq<Reply>) | Raised

  /** `handle_message`. `lookup` and `selectOk` are the provider's answers
      about the message's symbol, used only by a subscribe. */
  function HandleMessage(s: Server, c: Client, msg: Inbound,
                         lookup: SymbolLookup, selectOk: bool): (r: Handled)
    ensures msg.NotJson? ==> r == Handled(s, [Error("Invalid JSON message")])
    ensures msg.NotObject? || msg.Undecodable? <==> r.Raised?
    ensures msg.Object? && msg.msgType == Some("ping") ==> r == Handled(s, [Pong])
    ensures msg.Object? && msg.msgType in {Some("subscribe"), Some("unsubscribe")} && !Truthy(msg.symbol)
            ==> r == Handled(s, [])
    ensures msg.Object? && msg.msgType !in {Some("subscribe"), Some("unsubscribe"), Some("ping")}
            ==> r == Handled(s, [Error("Unknown message type: " + ShowOption(msg.msgType))])
    ensures msg.Object? && msg.msgType == Some("subscribe") && Truthy(msg.symbol)
            ==> var sub := SubscribeSymbol(s, c, msg.symbol.value, lookup, selectOk);
                r == Handled(sub.server, sub.replies)
    ensures msg.Object? && msg.msgType == Some("unsubscribe") && Truthy(msg.symbol)
            ==> r == Handled(UnsubscribeSymbol(s, c, msg.symbol.value).server,
                             [Subscription(msg.symbol.value, "unsubscribed")])
    ensures r.Handled? ==> r.server.clients == s.clients && |r.replies| <= 1
  {
    match msg
    case NotJson => Handled(s, [Error("Invalid JSON message")])
    case NotObject => Raised
    case Undecodable => Raised
    case Object(msgType, symbol) =>
      if msgType == Some("subscribe") then
        if Truthy(symbol) then
          var sub := SubscribeSymbol(s, c, symbol.value, lookup, selectOk);
          Handled(sub.server, sub.replies)
        else Handled(s, [])
      else if msgType == Some("unsubscribe") then
        if Truthy(symbol) then
          var un := UnsubscribeSymbol(s, c, symbol.value);
          Handled(un.server, un.replies)
        else Handled(s, [])
      else if msgType == Some("ping") then Handled(s, [Pong])
      else Handled(s, [Error("Unknown message type: " + ShowOption(msgType))])
  }

  /** Handling a message from a registered client keeps the registry
      invariant. */
  lemma HandleMessagePreservesValid(s: Server, c: Client, msg: Inbound, lookup: SymbolLookup, selectOk: bool)
    requires Valid(s) && c in s.clients
    ensures var r := HandleMessage(s, c, msg, lookup, selectOk);
            r.Handled? ==> Valid(r.server)
  {
    var r := HandleMessage(s, c, msg, lookup, selectOk);
    if msg.Object? && msg.msgType == Some("subscribe") && Truthy(msg.symbol) {
      SubscribePreservesValid(s, c, msg.symbol.value, lookup, selectOk);
    } else if msg.Object? && msg.msgType == Some("unsubscribe") && Truthy(msg.symbol) {
      UnsubscribePreservesValid(s, c, msg.symbol.value);
    }
  }

  /** One message as `handle_client` sees it: the connection stays open
      unless the handler raised, in which case the `finally` clause
      unregisters the client. */
  datatype Served = Served(server: Server, replies: seq<Reply>, open: bool)

  function ServeMessage(s: Server, c: Client, msg: Inbound,
                        lookup: SymbolLookup, selectOk: bool): (r: Served)
    ensures r.open <==> !(msg.NotObject? || msg.Undecodable?)
    ensures r.open ==> HandleMessage(s, c, msg, lookup, selectOk) == Handled(r.server, r.replies)
    ensures !r.open ==> r.server == UnregisterClient(s, c) && r.replies == []
    ensures !r.open ==> c !in r.server.clients && Unsubscribed(r.server, c)
    ensures msg.Object? && msg.msgType !in {Some("subscribe"), Some("unsubscribe"), Some("ping")}
            ==> r.open && r.server == s && r.replies == [Error("Unknown message type: " + ShowOption(msg.msgType))]
  {
    match HandleMessage(s, c, msg, lookup, selectOk)
    case Handled(server, replies) => Served(server, replies, true)
    case Raised => Served(UnregisterClient(s, c), [], false)
  }
}
